=== FILE: README.md ===
# Crop-disease dashboard: form validators, list edits and list filters

A Dafny model of the client-side logic of a farmer-facing crop-disease-detection dashboard
(a Next.js front end). The pages themselves are presentational; what they decide is modelled
here as pure functions over immutable records and sequences, with every React state update taken
as one atomic transition `State -> State`:

- **Registration** (`Register`, `RegisterSubmit`): the form record, the validator with its nine
  independent rules (name length, the `\S+@\S+\.\S+` e-mail shape, password length 6-50,
  confirmation, the Bangladeshi mobile pattern, photo URL, at least one crop, positive farm size,
  experience 0-100), clear-on-edit of a field's error, the duplicate-free crop multi-select, the
  crop label lookup, the request payload, and the submit sequence
  validate -> register -> log in with the replies of the two network calls as inputs.
- **Settings** (`Settings`): the preference map and its one-key update, the password-change
  validator and the reset of the three inputs after a successful change.
- **New field** and **new detection** forms (`NewField`, `NewDetection`): required inputs,
  positive area, the image checks (at most 5 MiB, MIME type starting with `image/`), the record
  or multipart request each page builds (and only logs) on submission.
- **Lists** (`Detections`, `Fields`): the case-insensitive search, the `'all'`-or-match selects,
  the summary counts, the severity badge and the empty-list hint.
- **Profile** (`Profile`): the edit / cancel / save cycle over a draft copy.

Shared modules: `Common` (option and number-entry types), `Strings` (JavaScript's `\s` and `\d`
classes, lower-casing, `includes`, `startsWith`), `Lists` (`filter`, subsequence, counts),
`FormErrors` (the error object and its clear-on-edit update).

An error object is a `map` from field key to message. As in the code, editing a field replaces
its message by the empty string and keeps the key; "the field shows an error" is
`FormErrors.HasError` (key present with a non-empty message), and a validation builds a fresh map
whose emptiness decides validity.

After a successful registration, a login reply without an access token produces no notification and no
navigation at all (`RegisterSubmit.TokenlessLoginIsSilent`). There is no distinct "login failed
after registration" outcome.

## Model

| member | source | states |
|---|---|---|
| Strings.IndexOf | src/app/dashboard/farmer/detections/page.tsx:93-96 | a decision procedure for the `includes` test the searches use: it returns -1 exactly when the query does not occur, and otherwise the position of its first occurrence |
| Strings.SearchIgnoresCase | src/app/dashboard/farmer/detections/page.tsx:93-96 | the lower-cased search gives the same answer whichever side is lower-cased first, so the case of the letters A-Z never matters |
| Strings.Utf16Length | src/app/register/page.tsx:96-112 | `.length` counts UTF-16 code units: between one and two per character, exactly one each when no character lies outside the Basic Multilingual Plane, two each when all do, zero only for the empty string |
| Strings.Utf16LengthAppend | src/app/register/page.tsx:96-112 | the code-unit length of a concatenation is the sum of the lengths of its parts |
| Strings.EmptyIsEverywhere | src/app/dashboard/farmer/fields/page.tsx:104-105 | the empty query is found in every text, with or without case folding |
| Lists.Filter | src/app/dashboard/farmer/detections/page.tsx:92-102 | `filter` keeps exactly the elements that pass, each as often as in the input, and never makes the list longer |
| Lists.FilterIsSubsequence | src/app/dashboard/farmer/detections/page.tsx:92 | whatever the predicate, the filtered list is an order-preserving subsequence of the input |
| Lists.FilterKeepsAll | src/app/dashboard/farmer/fields/page.tsx:103-108 | a predicate every element passes returns the list unchanged |
| Lists.CountMonotone | src/app/dashboard/farmer/detections/page.tsx:179 | a stronger predicate never counts more elements |
| Lists.CountDisjoint | src/app/dashboard/farmer/detections/page.tsx:179-191 | two exclusive predicates count at most the list length together |
| FormErrors.ClearError | src/app/register/page.tsx:50-53 | after an edit the field shows no error; every key and every other message is kept |
| FormErrors.ClearErrorIdempotent | src/app/register/page.tsx:62-64 | clearing a field without a message changes nothing, and clearing twice is clearing once |
| Register.WithText | src/app/register/page.tsx:46-49 | `{...formData, [name]: value}` sets one input and keeps every other input and the crop list |
| Register.MatchesEmail | src/app/register/page.tsx:103-105 | a one-pass scan decides exactly the unanchored `\S+@\S+\.\S+` shape |
| Register.MobileShape | src/app/register/page.tsx:118-120 | every accepted phone has 11, 13 or 14 characters, and its last eleven are `01`, a digit 3-9 and eight digits |
| Register.MobileAccepted | src/app/register/page.tsx:118-120 | `+8801`, `8801` or `01`, then a digit 3-9, then eight digits, is always accepted |
| Register.Validate | src/app/register/page.tsx:93-149 | the fresh error object has a non-empty message under exactly the keys whose rule fails, lengths counted in UTF-16 code units as `.length` does; the empty- and too-long-name messages, the too-short and too-long password messages |
| Register.RuleMessageAgrees | src/app/register/page.tsx:96-146 | the code's overwriting `if` chain writes a message exactly when the rule for that key fails |
| Register.OverwritingChecksExclusive | src/app/register/page.tsx:96-146 | the two name checks, the two password checks and the two experience checks never both fire, so no later check overwrites an earlier message |
| Register.ValidExactlyWhenRulesHold | src/app/register/page.tsx:148-149 | the form is valid (no key) exactly when all nine rules hold: name 1-100 and password 6-50 UTF-16 code units, e-mail shape, password confirmed, optional phone and photo well formed, a crop, farm size and experience in range |
| Register.ConfirmationRuleIsolated | src/app/register/page.tsx:114-116 | changing only the confirmation changes no entry of the error object except `confirmPassword` |
| Register.EmojiNameTooLong | src/app/register/page.tsx:99-101 | a name of sixty emoji is 120 code units and gets the too-long message |
| Register.WellFormedDraftPasses | src/app/register/page.tsx:93-149 | the draft Abdul / abdul@x.com / secret1 / secret1 / [rice] passes with no error |
| Register.AddCrop | src/app/register/page.tsx:68-73 | a crop already chosen leaves the list unchanged; an absent one is appended at the end; the list stays duplicate-free |
| Register.AddCropIdempotent | src/app/register/page.tsx:69 | choosing the same crop twice is choosing it once; twice from empty gives one crop |
| Register.RemoveAt | src/app/register/page.tsx:80-85 | removes exactly position `index` when it is in range, and nothing otherwise |
| Register.RemoveAtOrigin | src/app/register/page.tsx:83 | position `i` of the shortened list is position `i` or `i + 1` of the original |
| Register.RemoveAtDistinct | src/app/register/page.tsx:80-85 | removal keeps a duplicate-free crop list duplicate-free |
| Register.RemoveAtDropsCrop | src/app/register/page.tsx:80-85 | in a duplicate-free list the removed crop is gone |
| Register.RemoveAtKeepsOthers | src/app/register/page.tsx:80-85 | every crop at another position is still present |
| Register.CropLabel | src/app/register/page.tsx:88-90 | the label of the first option with that value, or the value itself when no option matches or its label is empty |
| Register.HandleChange | src/app/register/page.tsx:45-65 | one input overwritten, only its error cleared, everything else as it was |
| Register.HandleCropSelect | src/app/register/page.tsx:68-78 | a chosen crop changes nothing; a new one is appended and only the crop error is cleared |
| Register.HandleRemoveCrop | src/app/register/page.tsx:80-85 | drops one position; the errors are untouched |
| Register.CropsStayDistinct | src/app/register/page.tsx:68-85 | no sequence of edits, selections and removals ever makes the crop list hold a duplicate |
| RegisterSubmit.NumberOf | src/app/register/page.tsx:173-174 | an empty input is left out, an unparsable one is held as NaN in the payload, otherwise the parsed number |
| RegisterSubmit.Payload | src/app/register/page.tsx:164-179 | credentials and name as typed, each empty optional text left out, crops copied, numbers parsed |
| RegisterSubmit.PayloadKeepsTexts | src/app/register/page.tsx:168-177 | every optional text can be read back from the payload, the empty string being the only one left out |
| RegisterSubmit.Submit | src/app/register/page.tsx:153-207 | an invalid form sends nothing; the register call is made only for a valid form; `Duplicate entry found` gives the duplicate-e-mail notice without a login call, any other rejection the server's message or `Registration failed.`; a thrown error from either call gives its message or `Unexpected error occurred`; login is called with the same credentials only after a successful registration; home is reached exactly when login returns a token, with the server's message or `Registration successful!` |
| RegisterSubmit.TokenlessLoginIsSilent | src/app/register/page.tsx:192-200 | a registration whose login returns no token ends with no notice, no navigation and no retry |
| RegisterSubmit.WellFormedDraftRegisters | src/app/register/page.tsx:153-200 | the sample draft reaches the network and, with a token, the home page, logging in as abdul@x.com |
| Settings.ChangeSetting | src/app/dashboard/farmer/settings/page.tsx:76-81 | key `k` gets the value; every other preference is kept |
| Settings.ChangeSettingOverwrites | src/app/dashboard/farmer/settings/page.tsx:76-81 | the last change of a key wins; setting a key to its value changes nothing |
| Settings.ChangeKnownSettingKeepsKeys | src/app/dashboard/farmer/settings/page.tsx:49-81 | changes of the page's own keys never add a key to the preferences |
| Settings.ValidatePassword | src/app/dashboard/farmer/settings/page.tsx:99-116 | `oldPassword` error exactly when it is empty, `newPassword` exactly when shorter than 6 UTF-16 code units, `confirmPassword` exactly when the two differ |
| Settings.PasswordValidExactly | src/app/dashboard/farmer/settings/page.tsx:114-115 | validation succeeds exactly when the current password is given, the new one has at least 6 UTF-16 code units and the confirmation repeats it |
| Settings.ThreeEmojiAreSixCharacters | src/app/dashboard/farmer/settings/page.tsx:106-108 | three emoji are six code units, so they pass the new-password rule |
| Settings.EditPassword | src/app/dashboard/farmer/settings/page.tsx:388-461 | typing changes one password input and leaves the errors alone |
| Settings.ChangePassword | src/app/dashboard/farmer/settings/page.tsx:118-143 | on failure only the errors change; on success the three inputs are emptied |
| Settings.ChangeTwiceRejected | src/app/dashboard/farmer/settings/page.tsx:118-137 | right after a success, a second press fails on the current and the new password only |
| NewField.With | src/app/dashboard/farmer/fields/new/page.tsx:42-45 | one input overwritten, all others kept |
| NewField.ValidateField | src/app/dashboard/farmer/fields/new/page.tsx:61-76 | an error exactly under each empty required input and under an area that is empty or not positive; never under expected harvest or notes |
| NewField.FieldValidExactly | src/app/dashboard/farmer/fields/new/page.tsx:74-75 | the form is valid exactly when the six required inputs are filled and the area is not a non-positive number |
| NewField.HandleChange | src/app/dashboard/farmer/fields/new/page.tsx:41-59 | one input overwritten, only its error cleared |
| NewField.BuildFieldData | src/app/dashboard/farmer/fields/new/page.tsx:90-93 | the record built (and logged) on submission is the form with the area replaced by its parsed number |
| NewField.SubmittedAreaPositiveOrNaN | src/app/dashboard/farmer/fields/new/page.tsx:66-68 | a valid form yields a record with a positive area, or NaN when the area does not parse |
| NewDetection.SelectImage | src/app/dashboard/farmer/detections/new/page.tsx:44-64 | a file over 5 MiB, or whose type does not start with `image/`, is rejected with the state unchanged; one passing both becomes the selected image |
| NewDetection.RemoveImage | src/app/dashboard/farmer/detections/new/page.tsx:66-72 | no selected image, empty preview, form and errors kept |
| NewDetection.SelectChange | src/app/dashboard/farmer/detections/new/page.tsx:74-82 | the field or crop select is set and only its error cleared |
| NewDetection.EditNotes | src/app/dashboard/farmer/detections/new/page.tsx:317-320 | the notes take the typed text; the two selects, the image, the preview and the errors are kept (no error is cleared) |
| NewDetection.ValidateDetection | src/app/dashboard/farmer/detections/new/page.tsx:84-93 | an error for a missing image, field or crop type, each under its own key |
| NewDetection.DetectionValidExactly | src/app/dashboard/farmer/detections/new/page.tsx:91-92 | valid exactly when none of the three is missing |
| NewDetection.BuildParts | src/app/dashboard/farmer/detections/new/page.tsx:107-115 | the image first when selected, the field and crop always, the notes exactly when non-empty |
| NewDetection.SubmitDetection | src/app/dashboard/farmer/detections/new/page.tsx:95-116 | a request is built (and logged) only for a valid form, and it then carries the selected image first |
| NewDetection.OnlyCheckedImagesSelected | src/app/dashboard/farmer/detections/new/page.tsx:44-82 | no sequence of user actions makes an oversized or non-image file the selected image |
| Detections.FilterDetections | src/app/dashboard/farmer/detections/page.tsx:92-102 | a detection is listed exactly when search, status and crop all match, as often as it occurs in the input, and the list keeps the original order |
| Detections.NoFilterListsAll | src/app/dashboard/farmer/detections/page.tsx:92-102 | an empty query with both selects on `all` lists every detection |
| Detections.SelectsAndCase | src/app/dashboard/farmer/detections/page.tsx:97-100 | worked example: a `Tomato` detection matches the crop values `tomato` and `TOMATO`, but a `completed` one does not match the status `Completed` |
| Detections.CropSelectIgnoresCase | src/app/dashboard/farmer/detections/page.tsx:98-100 | any two crop-select values equal up to letter case (neither being `all`) select the same detections |
| Detections.StatusSelectExact | src/app/dashboard/farmer/detections/page.tsx:97 | a status value other than `all` selects exactly the detections with that status, letter case included |
| Detections.SummaryCountsConsistent | src/app/dashboard/farmer/detections/page.tsx:179-207 | diseases found never exceed completed; completed plus processing never exceed the total |
| Detections.SeverityBadge | src/app/dashboard/farmer/detections/page.tsx:117-128 | High is destructive, Moderate default, Low secondary, anything else outline |
| Fields.FilterFields | src/app/dashboard/farmer/fields/page.tsx:103-108 | a field is listed exactly when the search and the crop test both hold, as often as it occurs in the input, in the original order |
| Fields.NoFilterListsAll | src/app/dashboard/farmer/fields/page.tsx:103-108 | an empty query with `all` lists every field |
| Fields.EmptyStateHint | src/app/dashboard/farmer/fields/page.tsx:284-286 | "Try adjusting your filters" exactly when the query is non-empty or a crop is selected |
| Fields.FirstFieldHintOnlyWhenNoFields | src/app/dashboard/farmer/fields/page.tsx:278-286 | the "add your first field" hint over an empty list appears only when there are no fields at all |
| Profile.Opened | src/app/dashboard/farmer/profile/page.tsx:31-58 | the page opens not editing, with the draft a copy of the profile |
| Profile.StartEdit | src/app/dashboard/farmer/profile/page.tsx:60-63 | editing starts from a fresh copy of the saved profile |
| Profile.CancelEdit | src/app/dashboard/farmer/profile/page.tsx:65-68 | cancelling stops editing, resets the draft and keeps the saved profile |
| Profile.SaveEdit | src/app/dashboard/farmer/profile/page.tsx:79-80 | saving makes the draft the saved profile and stops editing |
| Profile.SetField | src/app/dashboard/farmer/profile/page.tsx:91-94 | one top-level text field changes; the farm profile and stats are kept |
| Profile.SetFarmer | src/app/dashboard/farmer/profile/page.tsx:100-103 | one farm field changes; the crop list and the other farm fields are kept |
| Profile.HandleChange | src/app/dashboard/farmer/profile/page.tsx:90-95 | only the named field of the draft changes, never the saved profile |
| Profile.HandleFarmerProfileChange | src/app/dashboard/farmer/profile/page.tsx:97-105 | only one field of the draft's farm profile changes, never the saved profile |
| Profile.EditsTouchOnlyDraft | src/app/dashboard/farmer/profile/page.tsx:90-105 | any run of edits equals applying them to the draft, with saved profile and editing flag unchanged |
| Profile.CancelDiscardsEdits | src/app/dashboard/farmer/profile/page.tsx:60-105 | edit, change anything, cancel: the page is back to the saved profile |
| Profile.SaveCommitsEdits | src/app/dashboard/farmer/profile/page.tsx:60-105 | edit, change things, save: the saved profile is the old one with the edits applied in order |

## Left out

- Rendering, styling, `toast` display and `router.push`: the notices are values (`Notice`, `ImageNotice`, `PasswordNotice`) and navigation home is a `goHome` flag.
- The `loading` flag and button disabling: every handler is one atomic transition, so re-entrancy does not arise.
- The simulated `setTimeout` delays, and the `catch` branches around them in the settings, new-field, new-detection and profile handlers: a timer that cannot fail leaves those branches unreachable.
- `handleSaveSettings` and `handleDeleteAccount`: apart from `loading` and a notice they change no state.
- The network: `registerFarmer` and `loginFarmer` are replaced by their replies (`RegisterReply`, `LoginReply`), including a thrown error. The token storage, cookies and JWT decoding in `src/services` are not part of this model.
- Sending the new field and the new detection: neither page sends its request, because the API call in both handlers is still a placeholder; the model stops at the built record or `FormData`.
- The request body's serialisation: `JSON.stringify` in `registerFarmer` turns a `NaN` number into `null`; the model stops at the payload value.
- `parseFloat` and `parseInt` are parameters returning `None` for `NaN`, because their float and prefix-parsing behaviour is not modelled.
- `new URL(...)` is the parameter `Host.isUrl`, because URL parsing is not modelled.
- `FileReader`: an accepted image does not update the preview, because the data URL arrives asynchronously. The reset of the DOM file input in `handleRemoveImage` is not modelled.
- `handleDelete` on the fields page only logs the id.
- `getStatusIcon`, `formatDate` and `toLocaleDateString` only produce markup or locale-dependent text.
- The show/hide-password toggles are view state.
- The static pages (analytics, dashboard home, landing, login, headers, footer, sidebar, layout) and `src/types/index.ts` are not modelled.
- Strings.Lower: only the ASCII letters A-Z are folded, whereas `toLowerCase` applies the full Unicode case mappings, including the context-dependent ones. Searches and crop comparisons on non-ASCII text are therefore compared differently: more strictly for letters outside A-Z (`É` does not match `é`), and more permissively where the browser's lowering depends on context (a final capital sigma lowers to `ς`, so the browser does not find `Σ` in `ΑΣ`, while the model does).
- Register.HandleChange: requires a key other than `cropTypes`, since no text input or select on the page carries that name.
- Register.RemoveAt: the index is an integer; a fractional index (which removes nothing in JavaScript) is not represented.
- Settings.ChangeSetting: values are switches or select choices only, where the source accepts `any`.
- Profile.HandleChange: the field is one of the five top-level text fields the page's inputs edit (name, email, phone, address, bio) or `profileImage`, which the handler accepts though no input writes it; the source accepts any key and value.

=== FILE: common.dfy ===
/** Small value types shared by the page models. */
module Common {

  /** An optional value: `None` stands for JavaScript's `undefined`/`null`. */
  datatype Option<+T> = None | Some(value: T) {
    /** The value, or `default` when there is none. */
    function GetOr(default: T): T {
      match this
      case Some(v) => v
      case None => default
    }
  }

  /** What `parseFloat`/`parseInt` return: `None` stands for `NaN`. */
  type FloatParser = string -> Option<real>
  type IntParser = string -> Option<int>

  /** `parseFloat(x) <= 0` on a parsed value (false for `NaN`). */
  predicate NonPositive(x: Option<real>) {
    x.Some? && x.value <= 0.0
  }

  /** A numeric payload entry: left out, held as `NaN`, or a number. */
  datatype NumberEntry<+T> = Omitted | NotANumber | Number(value: T)

  /** JavaScript's `s || undefined` on a string: the empty string is dropped. */
  function OrUndefined(s: string): (r: Option<string>)
    ensures r.None? <==> s == ""
    ensures r.Some? ==> r.value == s
  {
    if s == "" then None else Some(s)
  }

  /** JavaScript's `s || fallback` on a string. */
  function OrElse(s: string, fallback: string): (r: string)
    ensures s != "" ==> r == s
    ensures s == "" ==> r == fallback
  {
    if s == "" then fallback else s
  }
}

=== FILE: detections.dfy ===
/** The detections list page: the three combined filters, the summary counts and the severity
    badge. */
module Detections {
  import opened Common
  import opened Strings
  import opened Lists

  datatype Detection = Detection(
    id: string,
    fieldName: string,
    cropType: string,
    disease: string,
    confidence: int,
    severity: string,
    status: string,
    imageUrl: string,
    createdAt: string,
    processedAt: Option<string>)

  /** The value of the status and crop selects that turns the filter off. */
  const AllValues := "all"

  /** The search box: a case-insensitive substring of the field name, the crop or the disease. */
  predicate MatchesSearch(d: Detection, query: string) {
    || ContainsIgnoreCase(d.fieldName, query)
    || ContainsIgnoreCase(d.cropType, query)
    || ContainsIgnoreCase(d.disease, query)
  }

  /** The status select: `'all'`, or exactly the detection's status. */
  predicate MatchesStatus(d: Detection, status: string) {
    status == AllValues || d.status == status
  }

  /** The crop select: `'all'`, or the detection's crop up to letter case. */
  predicate MatchesCrop(d: Detection, crop: string) {
    crop == AllValues || EqualsIgnoreCase(d.cropType, crop)
  }

  /** The predicate handed to `detections.filter`. */
  function Keeper(query: string, status: string, crop: string): Detection -> bool {
    d => MatchesSearch(d, query) && MatchesStatus(d, status) && MatchesCrop(d, crop)
  }

  /** `filteredDetections`: exactly the detections passing all three tests, each as often as in
      the input, in their original order. */
  function FilterDetections(ds: seq<Detection>, query: string, status: string, crop: string): (r: seq<Detection>)
    ensures forall i :: 0 <= i < |r| ==>
              r[i] in ds && MatchesSearch(r[i], query) && MatchesStatus(r[i], status) && MatchesCrop(r[i], crop)
    ensures forall i ::
              (0 <= i < |ds| && MatchesSearch(ds[i], query) && MatchesStatus(ds[i], status) && MatchesCrop(ds[i], crop))
              ==> ds[i] in r
    ensures forall i :: 0 <= i < |ds| ==>
              multiset(r)[ds[i]]
              == if MatchesSearch(ds[i], query) && MatchesStatus(ds[i], status) && MatchesCrop(ds[i], crop)
                 then multiset(ds)[ds[i]] else 0
    ensures IsSubsequence(r, ds)
  {
    FilterIsSubsequence(ds, Keeper(query, status, crop));
    Filter(ds, Keeper(query, status, crop))
  }

  /** With an empty query and both selects on `'all'`, every detection is listed. */
  lemma NoFilterListsAll(ds: seq<Detection>)
    ensures FilterDetections(ds, "", AllValues, AllValues) == ds
  {
    forall i | 0 <= i < |ds|
      ensures Keeper("", AllValues, AllValues)(ds[i])
    {
      EmptyIsEverywhere(ds[i].fieldName);
    }
    FilterKeepsAll(ds, Keeper("", AllValues, AllValues));
  }

  /** The crop select ignores letter case, the status select does not. */
  lemma SelectsAndCase(d: Detection)
    requires d.cropType == "Tomato" && d.status == "completed"
    ensures MatchesCrop(d, "tomato") && MatchesCrop(d, "TOMATO")
    ensures !MatchesStatus(d, "Completed")
  {
    assert Lower("Tomato") == Lower("tomato") == Lower("TOMATO");
  }

  /** Two crop-select values that differ only in letter case select the same detections (unless
      one of them is the `'all'` value itself). */
  lemma CropSelectIgnoresCase(d: Detection, a: string, b: string)
    requires Lower(a) == Lower(b) && a != AllValues && b != AllValues
    ensures MatchesCrop(d, a) == MatchesCrop(d, b)
  {
  }

  /** A status-select value other than `'all'` selects exactly the detections with that status,
      letter case included. */
  lemma StatusSelectExact(d: Detection, status: string)
    requires status != AllValues
    ensures MatchesStatus(d, status) <==> d.status == status
  {
  }

  predicate IsCompleted(d: Detection) {
    d.status == "completed"
  }

  predicate IsProcessing(d: Detection) {
    d.status == "processing"
  }

  /** The "Diseases Found" card: completed and not healthy. */
  predicate IsDiseaseFound(d: Detection) {
    d.disease != "Healthy" && d.status == "completed"
  }

  /** The summary cards never contradict each other: diseases found are among the completed
      detections, and completed plus processing detections fit in the total. */
  lemma SummaryCountsConsistent(ds: seq<Detection>)
    ensures Count(ds, IsDiseaseFound) <= Count(ds, IsCompleted)
    ensures Count(ds, IsCompleted) + Count(ds, IsProcessing) <= |ds|
  {
    CountMonotone(ds, IsDiseaseFound, IsCompleted);
    CountDisjoint(ds, IsCompleted, IsProcessing);
  }

  /** The badge variants. */
  datatype Badge = Destructive | DefaultBadge | Secondary | Outline

  /** `getSeverityColor`. */
  function SeverityBadge(severity: string): (b: Badge)
    ensures b == Destructive <==> severity == "High"
    ensures b == DefaultBadge <==> severity == "Moderate"
    ensures b == Secondary <==> severity == "Low"
    ensures b == Outline <==> severity !in {"High", "Moderate", "Low"}
  {
    if severity == "High" then Destructive
    else if severity == "Moderate" then DefaultBadge
    else if severity == "Low" then Secondary
    else Outline
  }
}

=== FILE: fields.dfy ===
/** The fields list page: search and crop filter, and the message of the empty list. */
module Fields {
  import opened Strings
  import opened Lists

  datatype FieldRecord = FieldRecord(
    id: string,
    name: string,
    cropType: string,
    area: real,
    plantingDate: string,
    expectedHarvest: string,
    location: string,
    health: int,
    status: string,
    soilType: string,
    irrigationType: string,
    totalDetections: int)

  const AllCrops := "all"

  /** The search box: a case-insensitive substring of the name or of the crop. */
  predicate MatchesSearch(f: FieldRecord, query: string) {
    ContainsIgnoreCase(f.name, query) || ContainsIgnoreCase(f.cropType, query)
  }

  /** The crop select: `'all'`, or the field's crop up to letter case. */
  predicate MatchesCrop(f: FieldRecord, crop: string) {
    crop == AllCrops || EqualsIgnoreCase(f.cropType, crop)
  }

  function FieldKeeper(query: string, crop: string): FieldRecord -> bool {
    f => MatchesSearch(f, query) && MatchesCrop(f, crop)
  }

  /** `filteredFields`: exactly the fields passing both tests, each as often as in the input, in
      their original order. */
  function FilterFields(fields: seq<FieldRecord>, query: string, crop: string): (r: seq<FieldRecord>)
    ensures forall i :: 0 <= i < |r| ==> r[i] in fields && MatchesSearch(r[i], query) && MatchesCrop(r[i], crop)
    ensures forall i :: 0 <= i < |fields| && MatchesSearch(fields[i], query) && MatchesCrop(fields[i], crop)
                        ==> fields[i] in r
    ensures forall i :: 0 <= i < |fields| ==>
              multiset(r)[fields[i]]
              == if MatchesSearch(fields[i], query) && MatchesCrop(fields[i], crop) then multiset(fields)[fields[i]] else 0
    ensures IsSubsequence(r, fields)
  {
    FilterIsSubsequence(fields, FieldKeeper(query, crop));
    Filter(fields, FieldKeeper(query, crop))
  }

  /** With an empty query and `'all'`, every field is listed. */
  lemma NoFilterListsAll(fields: seq<FieldRecord>)
    ensures FilterFields(fields, "", AllCrops) == fields
  {
    forall i | 0 <= i < |fields|
      ensures FieldKeeper("", AllCrops)(fields[i])
    {
      EmptyIsEverywhere(fields[i].name);
    }
    FilterKeepsAll(fields, FieldKeeper("", AllCrops));
  }

  const AdjustFilters := "Try adjusting your filters"
  const AddFirstField := "Get started by adding your first field"

  /** The hint shown when no field is listed: a filter is active exactly when the query is not
      empty or a crop is selected. */
  function EmptyStateHint(query: string, crop: string): (hint: string)
    ensures hint == AdjustFilters <==> query != "" || crop != AllCrops
    ensures hint == AddFirstField <==> query == "" && crop == AllCrops
  {
    if query != "" || crop != AllCrops then AdjustFilters else AddFirstField
  }

  /** The "add your first field" hint over an empty list is shown only when there are no fields
      at all. */
  lemma FirstFieldHintOnlyWhenNoFields(fields: seq<FieldRecord>, query: string, crop: string)
    requires |FilterFields(fields, query, crop)| == 0
    requires EmptyStateHint(query, crop) == AddFirstField
    ensures |fields| == 0
  {
    NoFilterListsAll(fields);
  }
}

=== FILE: form_errors.dfy ===
/**
 * The per-form error object: a map from a field key to the message shown under the field.
 * Editing a field replaces its message by the empty string (the key stays, and the field is
 * no longer shown as erroneous); a fresh validation replaces the whole map.
 */
module FormErrors {

  type Errors<K> = map<K, string>

  /** `errors[k]` is truthy: the field shows a message. */
  predicate HasError<K>(errors: Errors<K>, k: K) {
    k in errors && errors[k] != ""
  }

  /** `if (errors[k]) setErrors({ ...errors, [k]: '' })`. */
  function ClearError<K>(errors: Errors<K>, k: K): (r: Errors<K>)
    ensures !HasError(r, k)
    ensures r.Keys == errors.Keys
    ensures forall j :: j in errors && j != k ==> r[j] == errors[j]
  {
    if HasError(errors, k) then errors[k := ""] else errors
  }

  /** Clearing a field that shows no message changes nothing; clearing twice is clearing once. */
  lemma ClearErrorIdempotent<K>(errors: Errors<K>, k: K)
    ensures !HasError(errors, k) ==> ClearError(errors, k) == errors
    ensures ClearError(ClearError(errors, k), k) == ClearError(errors, k)
  {
  }

  /** `Object.keys(errors).length === 0`. */
  predicate NoKeys<K>(errors: Errors<K>) {
    |errors| == 0
  }
}

=== FILE: lists.dfy ===
/** `Array.prototype.filter`, subsequences and counts, as the list pages use them. */
module Lists {

  /** `s.filter(keep)`: the elements that pass, each as often as in `s`, in their original order. */
  function Filter<T(==)>(s: seq<T>, keep: T -> bool): (r: seq<T>)
    ensures |r| <= |s|
    ensures forall i :: 0 <= i < |r| ==> r[i] in s && keep(r[i])
    ensures forall i :: 0 <= i < |s| && keep(s[i]) ==> s[i] in r
    ensures forall i :: 0 <= i < |s| ==> multiset(r)[s[i]] == if keep(s[i]) then multiset(s)[s[i]] else 0
  {
    if |s| == 0 then []
    else
      assert s == [s[0]] + s[1..];
      if keep(s[0]) then [s[0]] + Filter(s[1..], keep)
      else Filter(s[1..], keep)
  }

  /** `idx` lists, in increasing order, positions of `b` that spell out `a`. */
  ghost predicate Embeds<T>(idx: seq<int>, a: seq<T>, b: seq<T>) {
    && |idx| == |a|
    && (forall k :: 0 <= k < |idx| ==> 0 <= idx[k] < |b| && a[k] == b[idx[k]])
    && (forall k, l :: 0 <= k < l < |idx| ==> idx[k] < idx[l])
  }

  /** `a` is an order-preserving subsequence of `b`. */
  ghost predicate IsSubsequence<T>(a: seq<T>, b: seq<T>) {
    exists idx :: Embeds(idx, a, b)
  }

  /** Positions shifted one place to the right. */
  function Shift(idx: seq<int>): (r: seq<int>)
    ensures |r| == |idx|
    ensures forall k :: 0 <= k < |idx| ==> r[k] == idx[k] + 1
  {
    seq(|idx|, k requires 0 <= k < |idx| => idx[k] + 1)
  }

  /** An embedding into the tail of `b` shifts to an embedding into `b`. */
  lemma EmbedsShift<T>(idx: seq<int>, a: seq<T>, b: seq<T>)
    requires |b| > 0 && Embeds(idx, a, b[1..])
    ensures Embeds(Shift(idx), a, b)
  {
    var shifted := Shift(idx);
    forall k | 0 <= k < |idx|
      ensures 0 <= shifted[k] < |b| && a[k] == b[shifted[k]]
    {
      assert b[1..][idx[k]] == b[idx[k] + 1];
    }
  }

  /** An embedding into `b` that avoids position 0 extends by `b`'s head in front. */
  lemma EmbedsCons<T>(idx: seq<int>, a: seq<T>, b: seq<T>)
    requires |b| > 0 && Embeds(idx, a, b)
    requires forall k :: 0 <= k < |idx| ==> idx[k] > 0
    ensures Embeds([0] + idx, [b[0]] + a, b)
  {
    var full := [0] + idx;
    var longer := [b[0]] + a;
    forall k | 1 <= k < |full|
      ensures full[k] == idx[k - 1] && longer[k] == a[k - 1]
    {
    }
  }

  /** Whatever the predicate, the filtered list is an order-preserving subsequence. */
  lemma {:induction false} FilterIsSubsequence<T>(s: seq<T>, keep: T -> bool)
    ensures IsSubsequence(Filter(s, keep), s)
  {
    if |s| == 0 {
      assert Embeds([], Filter(s, keep), s);
    } else {
      FilterIsSubsequence(s[1..], keep);
      var tail := Filter(s[1..], keep);
      var idx :| Embeds(idx, tail, s[1..]);
      EmbedsShift(idx, tail, s);
      var shifted := Shift(idx);
      if keep(s[0]) {
        EmbedsCons(shifted, tail, s);
        assert Filter(s, keep) == [s[0]] + tail;
        assert Embeds([0] + shifted, Filter(s, keep), s);
      } else {
        assert Embeds(shifted, Filter(s, keep), s);
      }
    }
  }

  /** A predicate every element passes leaves the list as it is. */
  lemma {:induction false} FilterKeepsAll<T>(s: seq<T>, keep: T -> bool)
    requires forall i :: 0 <= i < |s| ==> keep(s[i])
    ensures Filter(s, keep) == s
  {
    if |s| > 0 {
      FilterKeepsAll(s[1..], keep);
    }
  }

  /** `s.filter(p).length`. */
  function Count<T(==)>(s: seq<T>, p: T -> bool): (n: nat)
    ensures n <= |s|
  {
    |Filter(s, p)|
  }

  /** A predicate implied by another counts at least as many elements. */
  lemma {:induction false} CountMonotone<T>(s: seq<T>, p: T -> bool, q: T -> bool)
    requires forall i :: 0 <= i < |s| ==> p(s[i]) ==> q(s[i])
    ensures Count(s, p) <= Count(s, q)
  {
    if |s| > 0 {
      CountMonotone(s[1..], p, q);
    }
  }

  /** Two predicates no element satisfies together count at most the whole list. */
  lemma {:induction false} CountDisjoint<T>(s: seq<T>, p: T -> bool, q: T -> bool)
    requires forall i :: 0 <= i < |s| ==> !(p(s[i]) && q(s[i]))
    ensures Count(s, p) + Count(s, q) <= |s|
  {
    if |s| > 0 {
      CountDisjoint(s[1..], p, q);
    }
  }

  /** No value occurs twice. */
  predicate NoDuplicates<T(==)>(s: seq<T>) {
    forall i, j :: 0 <= i < j < |s| ==> s[i] != s[j]
  }
}

=== FILE: new_detection.dfy ===
/** The "new detection" form: image selection with its size and type checks, the two selects,
    the validator and the multipart request it builds. */
module NewDetection {
  import opened Common
  import opened Strings
  import opened FormErrors

  /** A chosen file as the browser describes it. */
  datatype ImageFile = ImageFile(fileName: string, size: int, mimeType: string)

  /** The largest accepted image: 5 MiB. */
  const MaxImageBytes := 5 * 1024 * 1024

  datatype DetectionKey = Image | FieldId | CropType

  datatype DetectionForm = DetectionForm(fieldId: string, cropType: string, notes: string)

  /** The page state; `preview` is the data URL filled in later by the file reader. */
  datatype DetectionState = DetectionState(
    form: DetectionForm,
    selectedImage: Option<ImageFile>,
    preview: string,
    errors: Errors<DetectionKey>)

  const InitialDetectionState := DetectionState(DetectionForm("", "", ""), None, "", map[])

  /** Both checks of `handleImageSelect`: at most 5 MiB and a MIME type starting with `image/`. */
  predicate AcceptableImage(f: ImageFile) {
    f.size <= MaxImageBytes && StartsWith(f.mimeType, "image/")
  }

  datatype ImageNotice = NoFileChosen | ImageTooLarge | NotAnImage | ImageAccepted

  datatype ImageSelection = ImageSelection(state: DetectionState, notice: ImageNotice)

  /** `handleImageSelect`: the size is checked first, then the type; a rejected file leaves the
      state unchanged, an accepted one becomes the selected image. */
  function SelectImage(st: DetectionState, file: Option<ImageFile>): (r: ImageSelection)
    ensures file.None? ==> r == ImageSelection(st, NoFileChosen)
    ensures file.Some? && file.value.size > MaxImageBytes ==> r == ImageSelection(st, ImageTooLarge)
    ensures file.Some? && file.value.size <= MaxImageBytes && !StartsWith(file.value.mimeType, "image/")
            ==> r == ImageSelection(st, NotAnImage)
    ensures r.notice == ImageAccepted <==> file.Some? && AcceptableImage(file.value)
    ensures r.notice == ImageAccepted ==> r.state == st.(selectedImage := file)
  {
    match file
    case None => ImageSelection(st, NoFileChosen)
    case Some(f) =>
      if f.size > MaxImageBytes then ImageSelection(st, ImageTooLarge)
      else if !StartsWith(f.mimeType, "image/") then ImageSelection(st, NotAnImage)
      else ImageSelection(st.(selectedImage := Some(f)), ImageAccepted)
  }

  /** `handleRemoveImage`: no image, no preview; form and errors untouched. */
  function RemoveImage(st: DetectionState): (r: DetectionState)
    ensures r.selectedImage.None? && r.preview == ""
    ensures r.form == st.form && r.errors == st.errors
  {
    st.(selectedImage := None, preview := "")
  }

  /** `handleSelectChange` for the field and crop selects: set the value, clear only its error. */
  function SelectChange(st: DetectionState, k: DetectionKey, v: string): (r: DetectionState)
    requires k != Image
    ensures k == FieldId ==> r.form == st.form.(fieldId := v)
    ensures k == CropType ==> r.form == st.form.(cropType := v)
    ensures !HasError(r.errors, k) && r.errors.Keys == st.errors.Keys
    ensures forall j :: j in st.errors && j != k ==> r.errors[j] == st.errors[j]
    ensures r.selectedImage == st.selectedImage && r.preview == st.preview
  {
    var form := if k == FieldId then st.form.(fieldId := v) else st.form.(cropType := v);
    st.(form := form, errors := ClearError(st.errors, k))
  }

  /** Typing into the notes box: only the notes change (no error is cleared). */
  function EditNotes(st: DetectionState, v: string): (r: DetectionState)
    ensures r.form.notes == v
    ensures r.form.fieldId == st.form.fieldId && r.form.cropType == st.form.cropType
    ensures r.selectedImage == st.selectedImage && r.preview == st.preview && r.errors == st.errors
  {
    st.(form := st.form.(notes := v))
  }

  /** `validateForm`: an image, a field and a crop type are required. */
  function ValidateDetection(st: DetectionState): (errs: Errors<DetectionKey>)
    ensures Image in errs <==> st.selectedImage.None?
    ensures FieldId in errs <==> st.form.fieldId == ""
    ensures CropType in errs <==> st.form.cropType == ""
    ensures forall k :: k in errs ==> HasError(errs, k)
  {
    var e0: Errors<DetectionKey> := map[];
    var e1 := if st.selectedImage.None? then e0[Image := "Please select an image"] else e0;
    var e2 := if st.form.fieldId == "" then e1[FieldId := "Please select a field"] else e1;
    var e3 := if st.form.cropType == "" then e2[CropType := "Please select a crop type"] else e2;
    e3
  }

  /** The form is valid exactly when none of the three is missing. */
  lemma DetectionValidExactly(st: DetectionState)
    ensures NoKeys(ValidateDetection(st))
        <==> st.selectedImage.Some? && st.form.fieldId != "" && st.form.cropType != ""
  {
    var errs := ValidateDetection(st);
    if st.selectedImage.None? {
      assert Image in errs;
    } else if st.form.fieldId == "" {
      assert FieldId in errs;
    } else if st.form.cropType == "" {
      assert CropType in errs;
    }
  }

  /** One entry of the multipart request. */
  datatype Part = FilePart(key: string, file: ImageFile) | TextPart(key: string, text: string)

  /** The `FormData` of `handleSubmit`: the image when there is one, the field and the crop type,
      and the notes only when they are not empty. */
  function BuildParts(st: DetectionState): (parts: seq<Part>)
    ensures |parts| == (if st.selectedImage.Some? then 1 else 0) + 2 + (if st.form.notes != "" then 1 else 0)
    ensures st.selectedImage.Some? ==> parts[0] == FilePart("image", st.selectedImage.value)
    ensures (exists i :: 0 <= i < |parts| && parts[i].key == "notes") <==> st.form.notes != ""
    ensures forall i :: 0 <= i < |parts| && parts[i].key == "notes" ==> parts[i] == TextPart("notes", st.form.notes)
    ensures TextPart("fieldId", st.form.fieldId) in parts && TextPart("cropType", st.form.cropType) in parts
  {
    var image := if st.selectedImage.Some? then [FilePart("image", st.selectedImage.value)] else [];
    var notes := if st.form.notes != "" then [TextPart("notes", st.form.notes)] else [];
    var parts := image + [TextPart("fieldId", st.form.fieldId), TextPart("cropType", st.form.cropType)] + notes;
    assert parts[|image|] == TextPart("fieldId", st.form.fieldId);
    assert parts[|image| + 1] == TextPart("cropType", st.form.cropType);
    assert st.form.notes != "" ==> parts[|parts| - 1].key == "notes";
    parts
  }

  datatype DetectionSubmission = DetectionSubmission(errors: Errors<DetectionKey>, built: Option<seq<Part>>)

  /** `handleSubmit`: no request is built (and logged) unless the form is valid; a built request
      always carries the selected image first. */
  function SubmitDetection(st: DetectionState): (s: DetectionSubmission)
    ensures s.errors == ValidateDetection(st)
    ensures s.built.Some? <==> NoKeys(ValidateDetection(st))
    ensures s.built.Some? ==> st.selectedImage.Some? && s.built.value == BuildParts(st)
    ensures s.built.Some? ==> s.built.value[0] == FilePart("image", st.selectedImage.value)
  {
    var errs := ValidateDetection(st);
    DetectionValidExactly(st);
    if NoKeys(errs) then DetectionSubmission(errs, Some(BuildParts(st)))
    else DetectionSubmission(errs, None)
  }

  /** The user's actions on the page. */
  datatype DetectionEvent =
    | ChooseFile(file: Option<ImageFile>)
    | ClearImage
    | PickSelect(k: DetectionKey, v: string)
    | TypeNotes(v: string)

  function DetectionStep(st: DetectionState, e: DetectionEvent): DetectionState {
    match e
    case ChooseFile(file) => SelectImage(st, file).state
    case ClearImage => RemoveImage(st)
    case PickSelect(k, v) => if k == Image then st else SelectChange(st, k, v)
    case TypeNotes(v) => EditNotes(st, v)
  }

  function RunDetection(st: DetectionState, events: seq<DetectionEvent>): DetectionState
    decreases |events|
  {
    if |events| == 0 then st else RunDetection(DetectionStep(st, events[0]), events[1..])
  }

  /** The selected image, whenever there is one, passed both checks. */
  predicate ImageChecked(st: DetectionState) {
    st.selectedImage.Some? ==> AcceptableImage(st.selectedImage.value)
  }

  /** Whatever the user does, an oversized or non-image file never becomes the selected image. */
  lemma {:induction false} OnlyCheckedImagesSelected(st: DetectionState, events: seq<DetectionEvent>)
    requires ImageChecked(st)
    ensures ImageChecked(RunDetection(st, events))
    decreases |events|
  {
    if |events| > 0 {
      OnlyCheckedImagesSelected(DetectionStep(st, events[0]), events[1..]);
    }
  }
}

=== FILE: new_field.dfy ===
/** The "add new field" form: its inputs, the validator, the clear-on-edit handlers and the
    record it builds (and logs) on submission. */
module NewField {
  import opened Common
  import opened FormErrors

  datatype FieldKey =
    | Name | CropType | Area | PlantingDate | ExpectedHarvest | Location | SoilType | IrrigationType | Notes

  /** Every input holds the text typed or selected into it. */
  datatype FieldForm = FieldForm(
    name: string,
    cropType: string,
    area: string,
    plantingDate: string,
    expectedHarvest: string,
    location: string,
    soilType: string,
    irrigationType: string,
    notes: string)

  const EmptyFieldForm := FieldForm("", "", "", "", "", "", "", "", "")

  datatype FieldFormState = FieldFormState(form: FieldForm, errors: Errors<FieldKey>)

  function Get(f: FieldForm, k: FieldKey): string {
    match k
    case Name => f.name
    case CropType => f.cropType
    case Area => f.area
    case PlantingDate => f.plantingDate
    case ExpectedHarvest => f.expectedHarvest
    case Location => f.location
    case SoilType => f.soilType
    case IrrigationType => f.irrigationType
    case Notes => f.notes
  }

  /** `{ ...formData, [k]: v }`: input `k` gets `v`, every other input keeps its text. */
  function With(f: FieldForm, k: FieldKey, v: string): (r: FieldForm)
    ensures Get(r, k) == v
    ensures forall j :: j != k ==> Get(r, j) == Get(f, j)
  {
    match k
    case Name => f.(name := v)
    case CropType => f.(cropType := v)
    case Area => f.(area := v)
    case PlantingDate => f.(plantingDate := v)
    case ExpectedHarvest => f.(expectedHarvest := v)
    case Location => f.(location := v)
    case SoilType => f.(soilType := v)
    case IrrigationType => f.(irrigationType := v)
    case Notes => f.(notes := v)
  }

  /** The inputs the validator requires to be filled in. */
  predicate Required(k: FieldKey) {
    k != ExpectedHarvest && k != Notes
  }

  const AllFieldKeys: set<FieldKey> :=
    {Name, CropType, Area, PlantingDate, ExpectedHarvest, Location, SoilType, IrrigationType, Notes}

  /** The message `validateForm` writes under key `k`, if any. */
  function FieldRuleMessage(f: FieldForm, parseFloat: FloatParser, k: FieldKey): Option<string> {
    match k
    case Name => if f.name == "" then Some("Field name is required") else None
    case CropType => if f.cropType == "" then Some("Crop type is required") else None
    case Area =>
      if f.area == "" || NonPositive(parseFloat(f.area)) then Some("Valid area is required") else None
    case PlantingDate => if f.plantingDate == "" then Some("Planting date is required") else None
    case Location => if f.location == "" then Some("Location is required") else None
    case SoilType => if f.soilType == "" then Some("Soil type is required") else None
    case IrrigationType => if f.irrigationType == "" then Some("Irrigation type is required") else None
    case ExpectedHarvest => None
    case Notes => None
  }

  /** `validateForm`: a fresh error object with a message under every required input left empty,
      and under the area when it is also not a positive number; nothing else. */
  function ValidateField(f: FieldForm, parseFloat: FloatParser): (errs: Errors<FieldKey>)
    ensures forall k :: k in errs <==> (Required(k) && Get(f, k) == "") || (k == Area && NonPositive(parseFloat(f.area)))
    ensures forall k :: k in errs ==> HasError(errs, k)
  {
    map k | k in AllFieldKeys && FieldRuleMessage(f, parseFloat, k).Some? :: FieldRuleMessage(f, parseFloat, k).value
  }

  /** The form is valid exactly when every required input is filled in and the area does not
      parse to a non-positive number. */
  lemma FieldValidExactly(f: FieldForm, parseFloat: FloatParser)
    ensures NoKeys(ValidateField(f, parseFloat))
        <==> (forall k :: Required(k) ==> Get(f, k) != "") && !NonPositive(parseFloat(f.area))
  {
    var errs := ValidateField(f, parseFloat);
    if NoKeys(errs) {
      forall k | Required(k)
        ensures Get(f, k) != ""
      {
        assert k !in errs;
      }
      assert Area !in errs;
    } else {
      var k :| k in errs;
      assert Required(k);
    }
  }

  /** `handleChange` / `handleSelectChange`: overwrite one input and clear only its error. */
  function HandleChange(st: FieldFormState, k: FieldKey, v: string): (r: FieldFormState)
    ensures Get(r.form, k) == v && !HasError(r.errors, k)
    ensures forall j :: j != k ==> Get(r.form, j) == Get(st.form, j)
    ensures r.errors.Keys == st.errors.Keys
    ensures forall j :: j in st.errors && j != k ==> r.errors[j] == st.errors[j]
  {
    FieldFormState(With(st.form, k, v), ClearError(st.errors, k))
  }

  /** The record `handleSubmit` builds and logs: the form with the area as a number (`None` for `NaN`). */
  datatype FieldData = FieldData(
    name: string,
    cropType: string,
    area: Option<real>,
    plantingDate: string,
    expectedHarvest: string,
    location: string,
    soilType: string,
    irrigationType: string,
    notes: string)

  /** `{ ...formData, area: parseFloat(formData.area) }`. */
  function BuildFieldData(f: FieldForm, parseFloat: FloatParser): (d: FieldData)
    ensures d.area == parseFloat(f.area)
    ensures d.name == f.name && d.cropType == f.cropType && d.plantingDate == f.plantingDate
    ensures d.expectedHarvest == f.expectedHarvest && d.location == f.location
    ensures d.soilType == f.soilType && d.irrigationType == f.irrigationType && d.notes == f.notes
  {
    FieldData(f.name, f.cropType, parseFloat(f.area), f.plantingDate, f.expectedHarvest,
              f.location, f.soilType, f.irrigationType, f.notes)
  }

  /** A form that passes validation is submitted with a positive area, unless its area text does
      not parse at all, in which case the record holds `NaN`. */
  lemma SubmittedAreaPositiveOrNaN(f: FieldForm, parseFloat: FloatParser)
    requires NoKeys(ValidateField(f, parseFloat))
    ensures var d := BuildFieldData(f, parseFloat);
            d.area.None? || d.area.value > 0.0
  {
    assert Area !in ValidateField(f, parseFloat);
  }
}

=== FILE: profile.dfy ===
/** The profile page: the edit / cancel / save cycle over a draft copy of the profile. */
module Profile {
  import opened Common

  datatype FarmerProfile = FarmerProfile(
    farmSize: Option<real>,
    farmingExperience: Option<int>,
    farmLocation: string,
    soilType: string,
    irrigationType: string,
    cropTypes: seq<string>)

  datatype Stats = Stats(totalFields: int, totalDetections: int, memberSince: string)

  datatype ProfileData = ProfileData(
    name: string,
    email: string,
    phone: string,
    address: string,
    bio: string,
    profileImage: string,
    farmerProfile: FarmerProfile,
    stats: Stats)

  /** `isEditing`, the saved profile and the draft the inputs edit. */
  datatype ProfileState = ProfileState(isEditing: bool, profileData: ProfileData, editedData: ProfileData)

  /** The page as it opens: not editing, the draft a copy of the profile. */
  function Opened(data: ProfileData): (st: ProfileState)
    ensures !st.isEditing && st.editedData == st.profileData == data
  {
    ProfileState(false, data, data)
  }

  /** `handleEdit`: start editing from a fresh copy of the saved profile. */
  function StartEdit(st: ProfileState): (r: ProfileState)
    ensures r.isEditing && r.profileData == st.profileData && r.editedData == st.profileData
  {
    ProfileState(true, st.profileData, st.profileData)
  }

  /** `handleCancel`: leave editing and throw the draft away. */
  function CancelEdit(st: ProfileState): (r: ProfileState)
    ensures !r.isEditing && r.profileData == st.profileData && r.editedData == st.profileData
  {
    ProfileState(false, st.profileData, st.profileData)
  }

  /** `handleSave` (after the simulated request): the draft becomes the saved profile. */
  function SaveEdit(st: ProfileState): (r: ProfileState)
    ensures !r.isEditing && r.profileData == st.editedData && r.editedData == st.editedData
  {
    ProfileState(false, st.editedData, st.editedData)
  }

  /** The top-level text fields of the profile: the five the card's inputs edit, and the
      `profileImage` link, which `handleChange` accepts though no input writes it. */
  datatype ProfileField = Name | Email | Phone | Address | Bio | ProfileImage

  function FieldOf(d: ProfileData, k: ProfileField): string {
    match k
    case Name => d.name
    case Email => d.email
    case Phone => d.phone
    case Address => d.address
    case Bio => d.bio
    case ProfileImage => d.profileImage
  }

  /** `{ ...editedData, [field]: value }` on the draft. */
  function SetField(d: ProfileData, k: ProfileField, v: string): (r: ProfileData)
    ensures FieldOf(r, k) == v
    ensures forall j :: j != k ==> FieldOf(r, j) == FieldOf(d, j)
    ensures r.farmerProfile == d.farmerProfile && r.stats == d.stats
  {
    match k
    case Name => d.(name := v)
    case Email => d.(email := v)
    case Phone => d.(phone := v)
    case Address => d.(address := v)
    case Bio => d.(bio := v)
    case ProfileImage => d.(profileImage := v)
  }

  /** The values the farm inputs write (`parseFloat`/`parseInt` already applied; `None` is `NaN`). */
  datatype FarmerChange =
    | FarmSize(size: Option<real>)
    | FarmingExperience(years: Option<int>)
    | FarmLocation(location: string)
    | SoilType(soil: string)
    | IrrigationType(irrigation: string)

  /** `{ ...farmerProfile, [field]: value }`: one farm field changes, the crop list and the other
      farm fields are kept. */
  function SetFarmer(p: FarmerProfile, c: FarmerChange): (r: FarmerProfile)
    ensures r.cropTypes == p.cropTypes
    ensures c.FarmSize? ==> r == p.(farmSize := c.size)
    ensures c.FarmingExperience? ==> r == p.(farmingExperience := c.years)
    ensures c.FarmLocation? ==> r == p.(farmLocation := c.location)
    ensures c.SoilType? ==> r == p.(soilType := c.soil)
    ensures c.IrrigationType? ==> r == p.(irrigationType := c.irrigation)
  {
    match c
    case FarmSize(v) => p.(farmSize := v)
    case FarmingExperience(v) => p.(farmingExperience := v)
    case FarmLocation(v) => p.(farmLocation := v)
    case SoilType(v) => p.(soilType := v)
    case IrrigationType(v) => p.(irrigationType := v)
  }

  /** `handleChange`: only the named top-level field of the draft changes; the saved profile and
      the editing flag do not. */
  function HandleChange(st: ProfileState, k: ProfileField, v: string): (r: ProfileState)
    ensures r.isEditing == st.isEditing && r.profileData == st.profileData
    ensures FieldOf(r.editedData, k) == v
    ensures forall j :: j != k ==> FieldOf(r.editedData, j) == FieldOf(st.editedData, j)
    ensures r.editedData.farmerProfile == st.editedData.farmerProfile && r.editedData.stats == st.editedData.stats
  {
    st.(editedData := SetField(st.editedData, k, v))
  }

  /** `handleFarmerProfileChange`: only one field of the draft's farm profile changes. */
  function HandleFarmerProfileChange(st: ProfileState, c: FarmerChange): (r: ProfileState)
    ensures r.isEditing == st.isEditing && r.profileData == st.profileData
    ensures r.editedData == st.editedData.(farmerProfile := SetFarmer(st.editedData.farmerProfile, c))
  {
    st.(editedData := st.editedData.(farmerProfile := SetFarmer(st.editedData.farmerProfile, c)))
  }

  /** One edit made through the profile inputs. */
  datatype ProfileEdit = TopLevel(k: ProfileField, v: string) | Farm(c: FarmerChange)

  /** An edit applied to a profile value. */
  function ApplyEdit(d: ProfileData, e: ProfileEdit): ProfileData {
    match e
    case TopLevel(k, v) => SetField(d, k, v)
    case Farm(c) => d.(farmerProfile := SetFarmer(d.farmerProfile, c))
  }

  function ApplyEdits(d: ProfileData, edits: seq<ProfileEdit>): ProfileData
    decreases |edits|
  {
    if |edits| == 0 then d else ApplyEdits(ApplyEdit(d, edits[0]), edits[1..])
  }

  /** An edit dispatched to its handler. */
  function HandleEdit(st: ProfileState, e: ProfileEdit): ProfileState {
    match e
    case TopLevel(k, v) => HandleChange(st, k, v)
    case Farm(c) => HandleFarmerProfileChange(st, c)
  }

  function HandleEdits(st: ProfileState, edits: seq<ProfileEdit>): ProfileState
    decreases |edits|
  {
    if |edits| == 0 then st else HandleEdits(HandleEdit(st, edits[0]), edits[1..])
  }

  /** A run of edits only ever touches the draft: it ends with the edits applied to the draft,
      and the saved profile and the editing flag as they were. */
  lemma {:induction false} EditsTouchOnlyDraft(st: ProfileState, edits: seq<ProfileEdit>)
    ensures HandleEdits(st, edits) == st.(editedData := ApplyEdits(st.editedData, edits))
    decreases |edits|
  {
    if |edits| > 0 {
      var next := HandleEdit(st, edits[0]);
      assert next == st.(editedData := ApplyEdit(st.editedData, edits[0]));
      EditsTouchOnlyDraft(next, edits[1..]);
    }
  }

  /** Edit, change anything, cancel: the page is back to the saved profile, unchanged. */
  lemma CancelDiscardsEdits(st: ProfileState, edits: seq<ProfileEdit>)
    ensures CancelEdit(HandleEdits(StartEdit(st), edits)) == Opened(st.profileData)
  {
    EditsTouchOnlyDraft(StartEdit(st), edits);
  }

  /** Edit, change things, save: the saved profile is the old one with the edits applied in order. */
  lemma SaveCommitsEdits(st: ProfileState, edits: seq<ProfileEdit>)
    ensures SaveEdit(HandleEdits(StartEdit(st), edits)) == Opened(ApplyEdits(st.profileData, edits))
  {
    EditsTouchOnlyDraft(StartEdit(st), edits);
  }
}

=== FILE: register.dfy ===
/**
 * The farmer registration form: field state, the crop multi-select, the validator and the
 * error clearing that follows an edit.
 */
module Register {
  import opened Common
  import opened Strings
  import opened Lists
  import opened FormErrors

  /** The keys of the form and of its error object. */
  datatype RegField =
    | Name | Email | Password | ConfirmPassword | Phone | Address | Photo
    | CropTypes | FarmSize | FarmingExperience | FarmLocation | SoilType | IrrigationType

  /** The form state: every input holds the text typed into it; the crops are a list. */
  datatype RegForm = RegForm(
    name: string,
    email: string,
    password: string,
    confirmPassword: string,
    phone: string,
    address: string,
    photo: string,
    cropTypes: seq<string>,
    farmSize: string,
    farmingExperience: string,
    farmLocation: string,
    soilType: string,
    irrigationType: string)

  /** The browser built-ins the validator leans on: `parseFloat`, `parseInt`, and whether `new URL(s)` succeeds. */
  datatype Host = Host(parseFloat: FloatParser, parseInt: IntParser, isUrl: string -> bool)

  const EmptyForm := RegForm("", "", "", "", "", "", "", [], "", "", "", "", "")

  /** The state of the page: the form and the error object. */
  datatype RegState = RegState(form: RegForm, errors: Errors<RegField>)

  const InitialState := RegState(EmptyForm, map[])

  // ---------------------------------------------------------------------------------------
  // Field access

  /** The text held by a text input (every key except the crop list). */
  function FieldText(f: RegForm, k: RegField): string
    requires k != CropTypes
  {
    match k
    case Name => f.name
    case Email => f.email
    case Password => f.password
    case ConfirmPassword => f.confirmPassword
    case Phone => f.phone
    case Address => f.address
    case Photo => f.photo
    case FarmSize => f.farmSize
    case FarmingExperience => f.farmingExperience
    case FarmLocation => f.farmLocation
    case SoilType => f.soilType
    case IrrigationType => f.irrigationType
  }

  /** `{ ...formData, [k]: v }` for a text input: only input `k` changes. */
  function WithText(f: RegForm, k: RegField, v: string): (r: RegForm)
    requires k != CropTypes
    ensures FieldText(r, k) == v
    ensures forall j :: j != CropTypes && j != k ==> FieldText(r, j) == FieldText(f, j)
    ensures r.cropTypes == f.cropTypes
  {
    match k
    case Name => f.(name := v)
    case Email => f.(email := v)
    case Password => f.(password := v)
    case ConfirmPassword => f.(confirmPassword := v)
    case Phone => f.(phone := v)
    case Address => f.(address := v)
    case Photo => f.(photo := v)
    case FarmSize => f.(farmSize := v)
    case FarmingExperience => f.(farmingExperience := v)
    case FarmLocation => f.(farmLocation := v)
    case SoilType => f.(soilType := v)
    case IrrigationType => f.(irrigationType := v)
  }

  // ---------------------------------------------------------------------------------------
  // The e-mail shape: the unanchored pattern `\S+@\S+\.\S+`

  /**
   * The pattern matches with its `@` at `at` and its `.` at `dot`: one non-space before the `@`,
   * at least one non-space between the two, one non-space after the `.`. (Longer runs of `\S`
   * around the match do not matter, since the pattern is not anchored.)
   */
  predicate EmailAt(s: string, at: int, dot: int) {
    && 1 <= at && at + 2 <= dot && dot + 2 <= |s|
    && s[at] == '@' && s[dot] == '.'
    && !IsSpace(s[at - 1]) && !IsSpace(s[dot + 1])
    && forall k :: at < k < dot ==> !IsSpace(s[k])
  }

  /** `/\S+@\S+\.\S+/.test(s)`. */
  predicate EmailShape(s: string) {
    exists at, dot :: 0 <= at < |s| && 0 <= dot < |s| && EmailAt(s, at, dot)
  }

  /** Some match has its `.` before position `n`. */
  ghost predicate EmailMatchBefore(s: string, n: int) {
    exists at, dot :: 0 <= at < |s| && 0 <= dot < n && EmailAt(s, at, dot)
  }

  /** The one-pass scan's view of position `k`: a match ends its `.` at `k` exactly when the
      first usable `@` of the current run of non-spaces lies at least two places back. */
  lemma EmailStep(s: string, k: int, runStart: int, firstAt: int)
    requires 0 <= runStart <= k < |s|
    requires runStart == 0 || IsSpace(s[runStart - 1])
    requires forall j :: runStart <= j <= k ==> !IsSpace(s[j])
    requires firstAt == -1 ==> forall j :: runStart < j < k ==> s[j] != '@'
    requires firstAt != -1 ==> runStart < firstAt < k && s[firstAt] == '@'
    requires firstAt != -1 ==> forall j :: runStart < j < firstAt ==> s[j] != '@'
    ensures (exists at :: 0 <= at < |s| && EmailAt(s, at, k))
        <==> (s[k] == '.' && firstAt != -1 && firstAt + 2 <= k && k + 1 < |s| && !IsSpace(s[k + 1]))
  {
    if s[k] == '.' && firstAt != -1 && firstAt + 2 <= k && k + 1 < |s| && !IsSpace(s[k + 1]) {
      assert EmailAt(s, firstAt, k);
    }
    if exists at :: 0 <= at < |s| && EmailAt(s, at, k) {
      var at :| 0 <= at < |s| && EmailAt(s, at, k);
      assert runStart < at < k && s[at] == '@';
    }
  }

  /** A single left-to-right pass deciding the e-mail shape: a standalone executable witness that
      `EmailShape` is decided in one scan, as the regular-expression test does; the validator
      itself states its rule through `EmailShape`. */
  method MatchesEmail(s: string) returns (b: bool)
    ensures b == EmailShape(s)
  {
    var found := false;
    var runStart := 0;
    var firstAt := -1;
    var k := 0;
    while k < |s|
      invariant 0 <= runStart <= k <= |s|
      invariant runStart == 0 || IsSpace(s[runStart - 1])
      invariant forall j :: runStart <= j < k ==> !IsSpace(s[j])
      invariant firstAt == -1 ==> forall j :: runStart < j < k ==> s[j] != '@'
      invariant firstAt != -1 ==> runStart < firstAt < k && s[firstAt] == '@'
      invariant firstAt != -1 ==> forall j :: runStart < j < firstAt ==> s[j] != '@'
      invariant found == EmailMatchBefore(s, k)
    {
      if IsSpace(s[k]) {
        assert !exists at :: 0 <= at < |s| && EmailAt(s, at, k);
        runStart := k + 1;
        firstAt := -1;
      } else {
        EmailStep(s, k, runStart, firstAt);
        if s[k] == '.' && firstAt != -1 && firstAt + 2 <= k && k + 1 < |s| && !IsSpace(s[k + 1]) {
          found := true;
        }
        if s[k] == '@' && runStart < k && firstAt == -1 {
          firstAt := k;
        }
      }
      k := k + 1;
    }
    b := found;
  }

  // ---------------------------------------------------------------------------------------
  // The Bangladeshi mobile number: the anchored pattern `^(\+8801|8801|01)[3-9]\d{8}$`

  /** The part after the prefix: one digit 3-9 and then exactly eight digits. */
  predicate MobileTail(t: string) {
    |t| == 9 && '3' <= t[0] <= '9' && AllDigits(t[1..])
  }

  /** `/^(\+8801|8801|01)[3-9]\d{8}$/.test(s)`. */
  predicate IsBangladeshMobile(s: string) {
    || (|s| >= 5 && s[..5] == "+8801" && MobileTail(s[5..]))
    || (|s| >= 4 && s[..4] == "8801" && MobileTail(s[4..]))
    || (|s| >= 2 && s[..2] == "01" && MobileTail(s[2..]))
  }

  /** Every number the pattern accepts is a prefix, an operator digit 3-9 and eight digits. */
  lemma MobileShape(s: string)
    requires IsBangladeshMobile(s)
    ensures |s| == 11 || |s| == 13 || |s| == 14
    ensures s[|s| - 11..|s| - 9] == "01"
    ensures '3' <= s[|s| - 9] <= '9'
    ensures forall i :: |s| - 8 <= i < |s| ==> IsDigit(s[i])
  {
    var p := if |s| >= 5 && s[..5] == "+8801" && MobileTail(s[5..]) then 5
             else if |s| >= 4 && s[..4] == "8801" && MobileTail(s[4..]) then 4 else 2;
    assert MobileTail(s[p..]);
    assert s[p - 2..p] == "01";
    forall i | |s| - 8 <= i < |s|
      ensures IsDigit(s[i])
    {
      assert s[i] == s[p..][1..][i - p - 1];
    }
  }

  /** Conversely, each of the three prefixes followed by a digit 3-9 and eight digits is accepted. */
  lemma MobileAccepted(prefix: string, d: char, rest: string)
    requires prefix == "+8801" || prefix == "8801" || prefix == "01"
    requires '3' <= d <= '9' && |rest| == 8 && AllDigits(rest)
    ensures IsBangladeshMobile(prefix + [d] + rest)
  {
    var s := prefix + [d] + rest;
    assert s[..|prefix|] == prefix;
    assert s[|prefix|..] == [d] + rest;
    assert ([d] + rest)[1..] == rest;
  }

  // ---------------------------------------------------------------------------------------
  // The validator

  /** Whether the experience rule rejects `parseInt(x)` (never for `NaN`). */
  predicate ExperienceOutOfRange(x: Option<int>) {
    x.Some? && (x.value < 0 || x.value > 100)
  }

  /** Every key of the registration form. */
  const AllFields: set<RegField> := {
    Name, Email, Password, ConfirmPassword, Phone, Address, Photo,
    CropTypes, FarmSize, FarmingExperience, FarmLocation, SoilType, IrrigationType }

  /**
   * The message `validateForm` leaves under key `k`, if any. Where two checks write the same key
   * (name, password, experience) their conditions exclude each other
   * (`OverwritingChecksExclusive`), so the later overwrite in `validateForm` never replaces an
   * earlier message.
   */
  function RuleMessage(f: RegForm, host: Host, k: RegField): Option<string> {
    match k
    case Name =>
      if Utf16Length(f.name) > 100 then Some("Name must be less than 100 characters")
      else if f.name == "" then Some("Name is required")
      else None
    case Email =>
      if f.email == "" || !EmailShape(f.email) then Some("Invalid email format") else None
    case Password =>
      if Utf16Length(f.password) > 50 then Some("Password must be less than 50 characters")
      else if f.password == "" || Utf16Length(f.password) < 6 then Some("Password must be at least 6 characters")
      else None
    case ConfirmPassword =>
      if f.password != f.confirmPassword then Some("Passwords don't match") else None
    case Phone =>
      if f.phone != "" && !IsBangladeshMobile(f.phone) then Some("Invalid Bangladesh phone number") else None
    case Photo =>
      if f.photo != "" && !IsBlank(f.photo) && !host.isUrl(f.photo) then Some("Invalid photo URL") else None
    case CropTypes =>
      if |f.cropTypes| == 0 then Some("At least one crop type is required") else None
    case FarmSize =>
      if f.farmSize != "" && NonPositive(host.parseFloat(f.farmSize)) then Some("Farm size must be positive")
      else None
    case FarmingExperience =>
      var exp := host.parseInt(f.farmingExperience);
      if f.farmingExperience != "" && exp.Some? && exp.value > 100 then Some("Experience seems unrealistic")
      else if f.farmingExperience != "" && exp.Some? && exp.value < 0 then Some("Experience cannot be negative")
      else None
    case _ => None
  }

  /** The checks of `validateForm` that write the same key never both fire, so the overwriting
      order of that function and the per-key choice of `RuleMessage` leave the same message. */
  lemma OverwritingChecksExclusive(f: RegForm, host: Host)
    ensures !(f.name == "" && Utf16Length(f.name) > 100)
    ensures !((f.password == "" || Utf16Length(f.password) < 6) && Utf16Length(f.password) > 50)
    ensures var exp := host.parseInt(f.farmingExperience);
            !(exp.Some? && exp.value < 0 && exp.value > 100)
  {
  }

  /** The rule for key `k` rejects the form (stated field by field, without the messages). */
  predicate Fails(f: RegForm, host: Host, k: RegField) {
    match k
    case Name => f.name == "" || Utf16Length(f.name) > 100
    case Email => !EmailShape(f.email)
    case Password => Utf16Length(f.password) < 6 || Utf16Length(f.password) > 50
    case ConfirmPassword => f.password != f.confirmPassword
    case Phone => f.phone != "" && !IsBangladeshMobile(f.phone)
    case Photo => !IsBlank(f.photo) && !host.isUrl(f.photo)
    case CropTypes => |f.cropTypes| == 0
    case FarmSize => f.farmSize != "" && NonPositive(host.parseFloat(f.farmSize))
    case FarmingExperience =>
      f.farmingExperience != "" && ExperienceOutOfRange(host.parseInt(f.farmingExperience))
    case Address => false
    case FarmLocation => false
    case SoilType => false
    case IrrigationType => false
  }

  /** `validateForm`: a fresh error object with a non-empty message under exactly the keys whose
      rule rejects the form. */
  function Validate(f: RegForm, host: Host): (errs: Errors<RegField>)
    ensures forall k :: k in errs <==> Fails(f, host, k)
    ensures forall k :: k in errs ==> HasError(errs, k)
    ensures f.name == "" ==> Name in errs && errs[Name] == "Name is required"
    ensures Utf16Length(f.name) > 100 ==> Name in errs && errs[Name] == "Name must be less than 100 characters"
    ensures Utf16Length(f.password) > 50 ==> Password in errs && errs[Password] == "Password must be less than 50 characters"
    ensures Utf16Length(f.password) < 6 ==> Password in errs && errs[Password] == "Password must be at least 6 characters"
  {
    RuleMessageAgrees(f, host);
    map k | k in AllFields && RuleMessage(f, host, k).Some? :: RuleMessage(f, host, k).value
  }

  /** The messages the code writes and the rules agree: a message exactly when the rule fails,
      and never an empty one. */
  lemma RuleMessageAgrees(f: RegForm, host: Host)
    ensures forall k :: RuleMessage(f, host, k).Some? <==> Fails(f, host, k)
    ensures forall k :: RuleMessage(f, host, k).Some? ==> RuleMessage(f, host, k).value != ""
  {
    forall k
      ensures RuleMessage(f, host, k).Some? <==> Fails(f, host, k)
      ensures RuleMessage(f, host, k).Some? ==> RuleMessage(f, host, k).value != ""
    {
      match k {
        case Email => assert f.email == "" ==> !EmailShape(f.email);
        case _ =>
      }
    }
  }

  /** Every rule of the registration form, stated field by field. */
  predicate SatisfiesAllRules(f: RegForm, host: Host) {
    && 1 <= Utf16Length(f.name) <= 100
    && EmailShape(f.email)
    && 6 <= Utf16Length(f.password) <= 50
    && f.password == f.confirmPassword
    && (f.phone == "" || IsBangladeshMobile(f.phone))
    && (IsBlank(f.photo) || host.isUrl(f.photo))
    && |f.cropTypes| >= 1
    && (f.farmSize == "" || !NonPositive(host.parseFloat(f.farmSize)))
    && (f.farmingExperience == "" || !ExperienceOutOfRange(host.parseInt(f.farmingExperience)))
  }

  /** The form is valid (the fresh error object has no keys) exactly when every rule holds. */
  lemma ValidExactlyWhenRulesHold(f: RegForm, host: Host)
    ensures NoKeys(Validate(f, host)) <==> SatisfiesAllRules(f, host)
  {
    var errs := Validate(f, host);
    if SatisfiesAllRules(f, host) {
      forall k | true
        ensures k !in errs
      {
      }
    } else {
      var k :=
        if Fails(f, host, Name) then Name
        else if Fails(f, host, Email) then Email
        else if Fails(f, host, Password) then Password
        else if Fails(f, host, ConfirmPassword) then ConfirmPassword
        else if Fails(f, host, Phone) then Phone
        else if Fails(f, host, Photo) then Photo
        else if Fails(f, host, CropTypes) then CropTypes
        else if Fails(f, host, FarmSize) then FarmSize
        else FarmingExperience;
      assert k in errs;
    }
  }

  /** The confirmation rule touches no other key: changing only the confirmation leaves every
      other entry of the error object as it was. */
  lemma ConfirmationRuleIsolated(f: RegForm, host: Host, confirm: string)
    ensures Validate(f.(confirmPassword := confirm), host) - {ConfirmPassword}
         == Validate(f, host) - {ConfirmPassword}
  {
  }

  /** The name limit counts UTF-16 code units: sixty emoji are 120 units and too long. */
  lemma EmojiNameTooLong(f: RegForm, host: Host)
    requires f.name == seq(60, _ => '\U{1F600}')
    ensures Name in Validate(f, host)
    ensures Validate(f, host)[Name] == "Name must be less than 100 characters"
  {
    assert forall i :: 0 <= i < |f.name| ==> IsAstral(f.name[i]);
  }

  /** A well-formed draft passes with an empty error object. */
  lemma WellFormedDraftPasses(host: Host)
    ensures var f := EmptyForm.(name := "Abdul", email := "abdul@x.com", password := "secret1",
                                confirmPassword := "secret1", cropTypes := ["rice"]);
            NoKeys(Validate(f, host))
  {
    var f := EmptyForm.(name := "Abdul", email := "abdul@x.com", password := "secret1",
                        confirmPassword := "secret1", cropTypes := ["rice"]);
    assert EmailAt(f.email, 5, 7);
    assert IsBlank(f.photo);
    ValidExactlyWhenRulesHold(f, host);
  }

  // ---------------------------------------------------------------------------------------
  // The crop multi-select

  /** `handleCropSelect`'s list edit: append `v` unless it is already chosen. */
  function AddCrop(crops: seq<string>, v: string): (r: seq<string>)
    ensures v in r
    ensures v in crops ==> r == crops
    ensures v !in crops ==> r == crops + [v]
    ensures forall x :: x in r <==> x in crops || x == v
    ensures |crops| <= |r| <= |crops| + 1 && r[..|crops|] == crops
    ensures NoDuplicates(crops) ==> NoDuplicates(r)
  {
    if v in crops then crops else crops + [v]
  }

  /** Choosing the same crop twice is choosing it once. */
  lemma AddCropIdempotent(crops: seq<string>, v: string)
    ensures AddCrop(AddCrop(crops, v), v) == AddCrop(crops, v)
    ensures |AddCrop(AddCrop([], v), v)| == 1
  {
  }

  /** `crops.filter((_, i) => i !== index)`: an index outside the list removes nothing. */
  function RemoveAt(crops: seq<string>, index: int): (r: seq<string>)
    ensures 0 <= index < |crops| ==> r == crops[..index] + crops[index + 1..]
    ensures !(0 <= index < |crops|) ==> r == crops
  {
    if |crops| == 0 then []
    else if index == 0 then crops[1..]
    else [crops[0]] + RemoveAt(crops[1..], index - 1)
  }

  /** The position in the original list of position `i` of the list with `index` removed. */
  function Origin(i: int, index: int): int {
    if i < index then i else i + 1
  }

  /** Position `i` of the shortened list holds the element at `Origin(i, index)` of the original. */
  lemma RemoveAtOrigin(crops: seq<string>, index: int)
    requires 0 <= index < |crops|
    ensures |RemoveAt(crops, index)| == |crops| - 1
    ensures forall i :: 0 <= i < |crops| - 1 ==> RemoveAt(crops, index)[i] == crops[Origin(i, index)]
  {
    var r := RemoveAt(crops, index);
    assert r == crops[..index] + crops[index + 1..];
    forall i | 0 <= i < |r|
      ensures r[i] == crops[Origin(i, index)]
    {
      if i < index {
        assert r[i] == crops[..index][i];
      } else {
        assert r[i] == crops[index + 1..][i - index];
      }
    }
  }

  /** Removing a position from a list without duplicates leaves a list without duplicates. */
  lemma RemoveAtDistinct(crops: seq<string>, index: int)
    requires NoDuplicates(crops)
    requires 0 <= index < |crops|
    ensures NoDuplicates(RemoveAt(crops, index))
  {
    var r := RemoveAt(crops, index);
    RemoveAtOrigin(crops, index);
    forall i, j | 0 <= i < j < |r|
      ensures r[i] != r[j]
    {
      assert Origin(i, index) < Origin(j, index);
    }
  }

  /** In a list without duplicates, the removed crop is gone afterwards. */
  lemma RemoveAtDropsCrop(crops: seq<string>, index: int)
    requires NoDuplicates(crops)
    requires 0 <= index < |crops|
    ensures crops[index] !in RemoveAt(crops, index)
  {
    RemoveAtOrigin(crops, index);
  }

  /** Removing a position keeps every value stored at another position. */
  lemma RemoveAtKeepsOthers(crops: seq<string>, index: int, i: int)
    requires 0 <= index < |crops| && 0 <= i < |crops| && i != index
    ensures crops[i] in RemoveAt(crops, index)
  {
    RemoveAtOrigin(crops, index);
    if i < index {
      assert RemoveAt(crops, index)[i] == crops[i];
    } else {
      assert RemoveAt(crops, index)[i - 1] == crops[i];
    }
  }

  /** One option of the crop select: its value and its display label. */
  datatype CropOption = CropOption(value: string, title: string)

  /** `getCropLabel`: the label of the first option with that value, or the value itself when
      there is none or its label is empty. */
  function CropLabel(options: seq<CropOption>, v: string): (r: string)
    ensures (forall i :: 0 <= i < |options| ==> options[i].value != v) ==> r == v
    ensures forall i :: 0 <= i < |options| && options[i].value == v
                        && (forall j :: 0 <= j < i ==> options[j].value != v)
                        ==> r == OrElse(options[i].title, v)
    ensures r == v || exists i :: 0 <= i < |options| && options[i].value == v && options[i].title == r
  {
    if |options| == 0 then v
    else if options[0].value == v then OrElse(options[0].title, v)
    else
      var r := CropLabel(options[1..], v);
      assert forall i :: 1 <= i < |options| ==> options[i] == options[1..][i - 1];
      r
  }

  // ---------------------------------------------------------------------------------------
  // State transitions

  /** `handleChange` / `handleSelectChange`: overwrite one input, clear only its error. */
  function HandleChange(st: RegState, k: RegField, v: string): (r: RegState)
    requires k != CropTypes
    ensures FieldText(r.form, k) == v && !HasError(r.errors, k)
    ensures forall j :: j != CropTypes && j != k ==> FieldText(r.form, j) == FieldText(st.form, j)
    ensures r.form.cropTypes == st.form.cropTypes
    ensures r.errors.Keys == st.errors.Keys
    ensures forall j :: j in st.errors && j != k ==> r.errors[j] == st.errors[j]
  {
    RegState(WithText(st.form, k, v), ClearError(st.errors, k))
  }

  /** `handleCropSelect`: a crop already chosen changes nothing; a new one is appended and the
      crop error is cleared. */
  function HandleCropSelect(st: RegState, v: string): (r: RegState)
    ensures v in st.form.cropTypes ==> r == st
    ensures v !in st.form.cropTypes ==>
              && r.form == st.form.(cropTypes := st.form.cropTypes + [v])
              && !HasError(r.errors, CropTypes)
              && r.errors.Keys == st.errors.Keys
              && forall j :: j in st.errors && j != CropTypes ==> r.errors[j] == st.errors[j]
  {
    if v in st.form.cropTypes then st
    else RegState(st.form.(cropTypes := AddCrop(st.form.cropTypes, v)), ClearError(st.errors, CropTypes))
  }

  /** `removeCrop`: drops one position of the crop list; the errors stay as they are. */
  function HandleRemoveCrop(st: RegState, index: int): (r: RegState)
    ensures r.errors == st.errors
    ensures r.form == st.form.(cropTypes := RemoveAt(st.form.cropTypes, index))
  {
    RegState(st.form.(cropTypes := RemoveAt(st.form.cropTypes, index)), st.errors)
  }

  /** The user's edits on the page. */
  datatype Edit = Change(k: RegField, v: string) | SelectCrop(crop: string) | RemoveCrop(index: int)

  function Step(st: RegState, e: Edit): RegState {
    match e
    case Change(k, v) => if k == CropTypes then st else HandleChange(st, k, v)
    case SelectCrop(c) => HandleCropSelect(st, c)
    case RemoveCrop(i) => HandleRemoveCrop(st, i)
  }

  function Run(st: RegState, edits: seq<Edit>): RegState
    decreases |edits|
  {
    if |edits| == 0 then st else Run(Step(st, edits[0]), edits[1..])
  }

  /** Whatever the user does, the chosen crops never contain a duplicate. */
  lemma {:induction false} CropsStayDistinct(st: RegState, edits: seq<Edit>)
    requires NoDuplicates(st.form.cropTypes)
    ensures NoDuplicates(Run(st, edits).form.cropTypes)
    decreases |edits|
  {
    if |edits| > 0 {
      var next := Step(st, edits[0]);
      match edits[0] {
        case Change(k, v) =>
        case SelectCrop(c) =>
        case RemoveCrop(i) =>
          if 0 <= i < |st.form.cropTypes| {
            RemoveAtDistinct(st.form.cropTypes, i);
          }
      }
      CropsStayDistinct(next, edits[1..]);
    }
  }
}

=== FILE: register_submit.dfy ===
/**
 * Submission of the registration form: validate, shape the payload, register, then log in with
 * the same credentials. The two network calls are replaced by their replies, given as inputs.
 */
module RegisterSubmit {
  import opened Common
  import opened FormErrors
  import opened Register

  /** The `farmerProfile` part of the request body. */
  datatype FarmerProfilePayload = FarmerProfilePayload(
    cropTypes: seq<string>,
    farmSize: NumberEntry<real>,
    farmingExperience: NumberEntry<int>,
    farmLocation: Option<string>,
    soilType: Option<string>,
    irrigationType: Option<string>)

  /** The request body sent to the registration endpoint; `None` marks a key left `undefined`. */
  datatype RegisterPayload = RegisterPayload(
    email: string,
    password: string,
    name: string,
    phone: Option<string>,
    address: Option<string>,
    photo: Option<string>,
    farmerProfile: FarmerProfilePayload)

  datatype Credentials = Credentials(email: string, password: string)

  /** `text ? parse(text) : undefined`. */
  function NumberOf<T>(text: string, parse: string -> Option<T>): (r: NumberEntry<T>)
    ensures r.Omitted? <==> text == ""
    ensures r.NotANumber? <==> text != "" && parse(text).None?
    ensures r.Number? ==> parse(text) == Some(r.value)
  {
    if text == "" then Omitted
    else match parse(text)
      case None => NotANumber
      case Some(v) => Number(v)
  }

  /** `registerData`: credentials and name as typed; every empty optional text left out; the
      numbers parsed. */
  function Payload(f: RegForm, host: Host): (p: RegisterPayload)
    ensures p.email == f.email && p.password == f.password && p.name == f.name
    ensures p.phone == OrUndefined(f.phone) && p.address == OrUndefined(f.address)
    ensures p.photo == OrUndefined(f.photo)
    ensures p.farmerProfile.cropTypes == f.cropTypes
    ensures p.farmerProfile.farmSize == NumberOf(f.farmSize, host.parseFloat)
    ensures p.farmerProfile.farmingExperience == NumberOf(f.farmingExperience, host.parseInt)
    ensures p.farmerProfile.farmLocation == OrUndefined(f.farmLocation)
    ensures p.farmerProfile.soilType == OrUndefined(f.soilType)
    ensures p.farmerProfile.irrigationType == OrUndefined(f.irrigationType)
  {
    RegisterPayload(
      f.email, f.password, f.name,
      OrUndefined(f.phone), OrUndefined(f.address), OrUndefined(f.photo),
      FarmerProfilePayload(
        f.cropTypes,
        NumberOf(f.farmSize, host.parseFloat),
        NumberOf(f.farmingExperience, host.parseInt),
        OrUndefined(f.farmLocation), OrUndefined(f.soilType), OrUndefined(f.irrigationType)))
  }

  /** Every optional text of the form can be read back from the payload: the empty string is the
      only value that is left out, and it is restored as such. */
  lemma PayloadKeepsTexts(f: RegForm, host: Host)
    ensures var p := Payload(f, host);
            && p.phone.GetOr("") == f.phone && p.address.GetOr("") == f.address
            && p.photo.GetOr("") == f.photo
            && p.farmerProfile.farmLocation.GetOr("") == f.farmLocation
            && p.farmerProfile.soilType.GetOr("") == f.soilType
            && p.farmerProfile.irrigationType.GetOr("") == f.irrigationType
  {
  }

  /** What the registration call gave back: a JSON reply, or a thrown error. */
  datatype RegisterReply = RegisterResponse(success: bool, message: string) | RegisterThrew(reason: string)

  /** What the login call gave back: the access token found in `result.data`, or a thrown error. */
  datatype LoginReply = LoginResponse(accessToken: Option<string>) | LoginThrew(reason: string)

  /** The message the server sends when the e-mail is already registered. */
  const DuplicateEntry := "Duplicate entry found"

  /** The notification the user sees. */
  datatype Notice =
    | FixFields
    | EmailTaken
    | RegistrationFailed(message: string)
    | Registered(message: string)
    | UnexpectedError(message: string)
    | Silent

  /** The outcome of one press of the submit button. */
  datatype Submission = Submission(
    errors: Errors<RegField>,
    registerSent: Option<RegisterPayload>,
    loginSent: Option<Credentials>,
    notice: Notice,
    goHome: bool)

  /** `accessToken` is present and truthy. */
  predicate HasToken(login: LoginReply) {
    login.LoginResponse? && login.accessToken.Some? && login.accessToken.value != ""
  }

  /** `handleSubmit`: validation first, then registration, then login, each step only after the
      previous one succeeded. */
  function Submit(f: RegForm, host: Host, reg: RegisterReply, login: LoginReply): (s: Submission)
    ensures s.errors == Validate(f, host)
    ensures s.registerSent.Some? <==> NoKeys(Validate(f, host))
    ensures s.registerSent.Some? ==> s.registerSent.value == Payload(f, host)
    ensures s.notice == FixFields <==> !NoKeys(Validate(f, host))
    ensures s.notice == EmailTaken <==> s.registerSent.Some? && reg == RegisterResponse(false, DuplicateEntry)
    ensures s.loginSent.Some? <==> s.registerSent.Some? && reg.RegisterResponse? && reg.success
    ensures s.loginSent.Some? ==> s.loginSent.value == Credentials(f.email, f.password)
    ensures s.goHome <==> s.loginSent.Some? && HasToken(login)
    ensures s.goHome <==> s.notice.Registered?
    ensures s.goHome ==> reg.RegisterResponse? && s.notice == Registered(OrElse(reg.message, "Registration successful!"))
    ensures s.registerSent.Some? && reg.RegisterResponse? && !reg.success && reg.message != DuplicateEntry
            ==> s.notice == RegistrationFailed(OrElse(reg.message, "Registration failed."))
    ensures s.registerSent.Some? && reg.RegisterThrew?
            ==> s.loginSent.None? && s.notice == UnexpectedError(OrElse(reg.reason, "Unexpected error occurred"))
    ensures s.loginSent.Some? && login.LoginThrew?
            ==> s.notice == UnexpectedError(OrElse(login.reason, "Unexpected error occurred"))
  {
    var errs := Validate(f, host);
    if !NoKeys(errs) then
      Submission(errs, None, None, FixFields, false)
    else
      var payload := Payload(f, host);
      match reg
      case RegisterThrew(reason) =>
        Submission(errs, Some(payload), None, UnexpectedError(OrElse(reason, "Unexpected error occurred")), false)
      case RegisterResponse(success, message) =>
        if !success then
          var notice := if message == DuplicateEntry then EmailTaken
                        else RegistrationFailed(OrElse(message, "Registration failed."));
          Submission(errs, Some(payload), None, notice, false)
        else
          var creds := Credentials(payload.email, payload.password);
          match login
          case LoginThrew(reason) =>
            Submission(errs, Some(payload), Some(creds),
                       UnexpectedError(OrElse(reason, "Unexpected error occurred")), false)
          case LoginResponse(_) =>
            if HasToken(login) then
              Submission(errs, Some(payload), Some(creds), Registered(OrElse(message, "Registration successful!")), true)
            else
              Submission(errs, Some(payload), Some(creds), Silent, false)
  }

  /** A registration that succeeds but yields no access token ends without any notification and
      without navigation; nothing is retried. */
  lemma TokenlessLoginIsSilent(f: RegForm, host: Host, message: string, token: Option<string>)
    requires NoKeys(Validate(f, host))
    requires token.None? || token == Some("")
    ensures var s := Submit(f, host, RegisterResponse(true, message), LoginResponse(token));
            s.loginSent.Some? && s.notice == Silent && !s.goHome
  {
  }

  /** The well-formed sample draft reaches the network and, with a token, the home page. */
  lemma WellFormedDraftRegisters(host: Host, message: string, token: string)
    requires token != ""
    ensures var f := EmptyForm.(name := "Abdul", email := "abdul@x.com", password := "secret1",
                                confirmPassword := "secret1", cropTypes := ["rice"]);
            var s := Submit(f, host, RegisterResponse(true, message), LoginResponse(Some(token)));
            s.goHome && s.loginSent == Some(Credentials("abdul@x.com", "secret1"))
  {
    WellFormedDraftPasses(host);
  }
}

=== FILE: settings.dfy ===
/** The farmer settings page: the preference switches and the password-change form. */
module Settings {
  import opened Strings
  import opened FormErrors

  // ---------------------------------------------------------------------------------------
  // Preferences

  /** A preference is a switch or a choice from a select. */
  datatype SettingValue = Flag(on: bool) | Choice(option: string)

  type Preferences = map<string, SettingValue>

  /** The preferences the page starts with. */
  const DefaultPreferences: Preferences := map[
    "emailNotifications" := Flag(true),
    "pushNotifications" := Flag(true),
    "detectionAlerts" := Flag(true),
    "weeklyReport" := Flag(false),
    "diseaseAlerts" := Flag(true),
    "language" := Choice("en"),
    "theme" := Choice("light"),
    "profileVisibility" := Choice("public"),
    "showEmail" := Flag(false),
    "showPhone" := Flag(false)]

  /** `handleSettingChange(key, value)`: `{ ...settings, [key]: value }`. */
  function ChangeSetting(prefs: Preferences, key: string, value: SettingValue): (r: Preferences)
    ensures key in r && r[key] == value
    ensures r.Keys == prefs.Keys + {key}
    ensures forall k :: k in prefs && k != key ==> r[k] == prefs[k]
  {
    prefs[key := value]
  }

  /** The last change of a key wins, and setting a key to the value it has changes nothing. */
  lemma ChangeSettingOverwrites(prefs: Preferences, key: string, a: SettingValue, b: SettingValue)
    ensures ChangeSetting(ChangeSetting(prefs, key, a), key, b) == ChangeSetting(prefs, key, b)
    ensures key in prefs ==> ChangeSetting(prefs, key, prefs[key]) == prefs
  {
  }

  /** Changes to keys the page starts with never add a key. */
  lemma ChangeKnownSettingKeepsKeys(prefs: Preferences, key: string, value: SettingValue)
    requires prefs.Keys == DefaultPreferences.Keys
    requires key in DefaultPreferences
    ensures ChangeSetting(prefs, key, value).Keys == DefaultPreferences.Keys
  {
  }

  // ---------------------------------------------------------------------------------------
  // Password change

  datatype PasswordKey = OldPassword | NewPassword | ConfirmPassword

  datatype PasswordData = PasswordData(oldPassword: string, newPassword: string, confirmPassword: string)

  const EmptyPasswords := PasswordData("", "", "")

  datatype PasswordState = PasswordState(data: PasswordData, errors: Errors<PasswordKey>)

  /** `validatePassword`: three independent rules, each writing its own key. */
  function ValidatePassword(p: PasswordData): (errs: Errors<PasswordKey>)
    ensures OldPassword in errs <==> p.oldPassword == ""
    ensures NewPassword in errs <==> Utf16Length(p.newPassword) < 6
    ensures ConfirmPassword in errs <==> p.newPassword != p.confirmPassword
    ensures forall k :: k in errs ==> HasError(errs, k)
  {
    var e0: Errors<PasswordKey> := map[];
    var e1 := if p.oldPassword == "" then e0[OldPassword := "Current password is required"] else e0;
    var e2 := if p.newPassword == "" || Utf16Length(p.newPassword) < 6
              then e1[NewPassword := "New password must be at least 6 characters"] else e1;
    var e3 := if p.newPassword != p.confirmPassword then e2[ConfirmPassword := "Passwords don't match"] else e2;
    e3
  }

  /** `validatePassword()` returns true exactly when the current password is given, the new one
      has at least six characters, and the confirmation repeats it. */
  lemma PasswordValidExactly(p: PasswordData)
    ensures NoKeys(ValidatePassword(p))
        <==> p.oldPassword != "" && Utf16Length(p.newPassword) >= 6 && p.newPassword == p.confirmPassword
  {
    var errs := ValidatePassword(p);
    if p.oldPassword == "" {
      assert OldPassword in errs;
    } else if Utf16Length(p.newPassword) < 6 {
      assert NewPassword in errs;
    } else if p.newPassword != p.confirmPassword {
      assert ConfirmPassword in errs;
    }
  }

  /** The six-character rule counts UTF-16 code units: three emoji are a long enough new password. */
  lemma ThreeEmojiAreSixCharacters(p: PasswordData)
    requires p.oldPassword != "" && p.newPassword == p.confirmPassword == "\U{1F33E}\U{1F33E}\U{1F33E}"
    ensures NoKeys(ValidatePassword(p))
  {
    assert forall i :: 0 <= i < |p.newPassword| ==> IsAstral(p.newPassword[i]);
    PasswordValidExactly(p);
  }

  /** Typing into one of the three password inputs: only that input changes; the errors stay. */
  function EditPassword(st: PasswordState, k: PasswordKey, v: string): (r: PasswordState)
    ensures r.errors == st.errors
    ensures k == OldPassword ==> r.data == st.data.(oldPassword := v)
    ensures k == NewPassword ==> r.data == st.data.(newPassword := v)
    ensures k == ConfirmPassword ==> r.data == st.data.(confirmPassword := v)
  {
    match k
    case OldPassword => st.(data := st.data.(oldPassword := v))
    case NewPassword => st.(data := st.data.(newPassword := v))
    case ConfirmPassword => st.(data := st.data.(confirmPassword := v))
  }

  datatype PasswordNotice = CheckPasswordFields | PasswordUpdated

  datatype PasswordChange = PasswordChange(state: PasswordState, notice: PasswordNotice)

  /** `handleChangePassword`: on a failed validation only the errors change; on success the three
      inputs are emptied. */
  function ChangePassword(st: PasswordState): (r: PasswordChange)
    ensures r.state.errors == ValidatePassword(st.data)
    ensures r.notice == PasswordUpdated <==> NoKeys(ValidatePassword(st.data))
    ensures r.notice == CheckPasswordFields ==> r.state.data == st.data
    ensures r.notice == PasswordUpdated ==> r.state.data == EmptyPasswords
  {
    var errs := ValidatePassword(st.data);
    if !NoKeys(errs) then PasswordChange(PasswordState(st.data, errs), CheckPasswordFields)
    else PasswordChange(PasswordState(EmptyPasswords, errs), PasswordUpdated)
  }

  /** Pressing the button again right after a successful change is rejected: the emptied inputs
      miss the current and the new password (but agree with each other). */
  lemma ChangeTwiceRejected(st: PasswordState)
    requires ChangePassword(st).notice == PasswordUpdated
    ensures var again := ChangePassword(ChangePassword(st).state);
            && again.notice == CheckPasswordFields
            && again.state.errors.Keys == {OldPassword, NewPassword}
  {
    var errs := ChangePassword(ChangePassword(st).state).state.errors;
    assert OldPassword in errs && NewPassword in errs && ConfirmPassword !in errs;
  }
}

=== FILE: strings.dfy ===
/** Character classes, case folding and substring search as the pages use them. */
module Strings {

  /** JavaScript's `\s` class (and the set `String.prototype.trim` strips). */
  predicate IsSpace(c: char) {
    var n := c as int;
    (0x09 <= n <= 0x0D) || n == 0x20 || n == 0xA0 || n == 0x1680
    || (0x2000 <= n <= 0x200A) || n == 0x2028 || n == 0x2029
    || n == 0x202F || n == 0x205F || n == 0x3000 || n == 0xFEFF
  }

  /** JavaScript's `\d` class: the ASCII digits only. */
  predicate IsDigit(c: char) {
    '0' <= c <= '9'
  }

  predicate AllDigits(s: string) {
    forall i :: 0 <= i < |s| ==> IsDigit(s[i])
  }

  /** `s.trim() === ''`: the string holds only whitespace. */
  predicate IsBlank(s: string) {
    forall i :: 0 <= i < |s| ==> IsSpace(s[i])
  }

  /** Lower-casing of one character (ASCII letters). */
  function LowerChar(c: char): (r: char)
    ensures 'A' <= c <= 'Z' ==> 'a' <= r <= 'z' && r as int - c as int == 32
    ensures !('A' <= c <= 'Z') ==> r == c
  {
    if 'A' <= c <= 'Z' then (c as int + 32) as char else c
  }

  /** `s.toLowerCase()`, character by character. */
  function Lower(s: string): (r: string)
    ensures |r| == |s|
    ensures forall i :: 0 <= i < |s| ==> r[i] == LowerChar(s[i])
  {
    seq(|s|, i requires 0 <= i < |s| => LowerChar(s[i]))
  }

  /** Lower-casing twice is lower-casing once. */
  lemma LowerIdempotent(s: string)
    ensures Lower(Lower(s)) == Lower(s)
  {
    assert forall i :: 0 <= i < |s| ==> LowerChar(LowerChar(s[i])) == LowerChar(s[i]);
  }

  /** A character outside the Basic Multilingual Plane: JavaScript stores it as a surrogate pair. */
  predicate IsAstral(c: char) {
    c as int > 0xFFFF
  }

  /**
   * `s.length`: the number of UTF-16 code units, where a character outside the Basic
   * Multilingual Plane (an emoji, say) counts twice.
   */
  function Utf16Length(s: string): (n: nat)
    ensures |s| <= n <= 2 * |s|
    ensures n == 0 <==> s == ""
    ensures n == |s| <==> forall i :: 0 <= i < |s| ==> !IsAstral(s[i])
    ensures n == 2 * |s| <==> forall i :: 0 <= i < |s| ==> IsAstral(s[i])
  {
    if |s| == 0 then 0
    else
      assert forall i :: 1 <= i < |s| ==> s[1..][i - 1] == s[i];
      (if IsAstral(s[0]) then 2 else 1) + Utf16Length(s[1..])
  }

  /** The code-unit length of a concatenation is the sum of the parts' lengths. */
  lemma {:induction false} Utf16LengthAppend(a: string, b: string)
    ensures Utf16Length(a + b) == Utf16Length(a) + Utf16Length(b)
  {
    if |a| > 0 {
      assert (a + b)[1..] == a[1..] + b;
      Utf16LengthAppend(a[1..], b);
    } else {
      assert a + b == b;
    }
  }

  /** `s.startsWith(prefix)`. */
  predicate StartsWith(s: string, prefix: string) {
    |prefix| <= |s| && s[..|prefix|] == prefix
  }

  /** `needle` occurs in `hay` starting at position `i`. */
  predicate OccursAt(hay: string, needle: string, i: int) {
    0 <= i && i + |needle| <= |hay| && hay[i..i + |needle|] == needle
  }

  /** `hay.includes(needle)`. */
  predicate Contains(hay: string, needle: string) {
    exists i :: 0 <= i <= |hay| && OccursAt(hay, needle, i)
  }

  /** `hay.toLowerCase().includes(needle.toLowerCase())`. */
  predicate ContainsIgnoreCase(hay: string, needle: string) {
    Contains(Lower(hay), Lower(needle))
  }

  /** `a.toLowerCase() === b.toLowerCase()`. */
  predicate EqualsIgnoreCase(a: string, b: string) {
    Lower(a) == Lower(b)
  }

  /** The empty string is found in every string (the empty search query matches everything). */
  lemma EmptyIsEverywhere(hay: string)
    ensures Contains(hay, "")
    ensures ContainsIgnoreCase(hay, "")
  {
    assert OccursAt(hay, "", 0);
    assert Lower("") == "";
    assert OccursAt(Lower(hay), Lower(""), 0);
  }

  /** The case-insensitive search only sees the lower-cased text of either side. */
  lemma SearchIgnoresCase(hay: string, needle: string)
    ensures ContainsIgnoreCase(hay, needle) == ContainsIgnoreCase(Lower(hay), needle)
    ensures ContainsIgnoreCase(hay, needle) == ContainsIgnoreCase(hay, Lower(needle))
  {
    LowerIdempotent(hay);
    LowerIdempotent(needle);
  }

  /** A decision procedure for `Contains` (the test behind `includes`): the position of the first
      occurrence of `needle` in `hay`, or -1 when there is none. A standalone executable witness
      that the specification-level `Contains` is computable; no other member calls it. */
  method IndexOf(hay: string, needle: string) returns (r: int)
    ensures -1 <= r <= |hay|
    ensures r == -1 <==> !Contains(hay, needle)
    ensures r >= 0 ==> OccursAt(hay, needle, r)
    ensures r >= 0 ==> forall j :: 0 <= j < r ==> !OccursAt(hay, needle, j)
  {
    if |needle| > |hay| {
      return -1;
    }
    var i := 0;
    while i <= |hay| - |needle|
      invariant 0 <= i <= |hay| - |needle| + 1
      invariant forall j :: 0 <= j < i ==> !OccursAt(hay, needle, j)
    {
      if hay[i..i + |needle|] == needle {
        assert OccursAt(hay, needle, i);
        return i;
      }
      i := i + 1;
    }
    return -1;
  }
}
